=== FILE: README.md ===
# A verified model of the rust_text_editor core

This project models, in Dafny, the core of a small modal terminal text
editor written in Rust. The editor has two generations of code.

The `core/` crate is the current editor:
- a rope-backed text buffer per file, with one cursor per window;
- a list of windows, one of which is focused;
- grapheme-aware cursor movements and edits (`core/src/movements.rs`, with
  grapheme search in `core/src/text.rs`);
- scrolling that keeps the caret in view (`Window::position_cursor_in_view`);
- the editor view's key table in Normal and Insert modes;
- the command prompt component.

The `src/` crate is the earlier, line-based generation:
- the component stack that offers events from the top down and runs the
  callbacks they hand back;
- the line buffer with its insert, delete and newline edits on `(x, y)`
  positions;
- the grid of cells, the toy cursor, the geometry types and the mode enum.

## How the model is organised

- `text.dfy` (`Text`) defines, over a flat sequence of chars, display width,
  extended grapheme cluster boundaries and the next, previous and n-th
  boundary searches. These functions are the specification.
- `unicode.dfy` (`Unicode`) gives the character classes those definitions
  use.
- `rope.dfy` (`Rope`) models a rope as a sequence of chunks. The chunk-walking
  searches of `core/src/text.rs`, and the `RopeGraphemes` iterator, are
  imperative methods, each proved equal to the flat specification.
- `lines.dfy` (`Lines`) gives the rope's line index (`len_lines`,
  `char_to_line`, `line_to_char`, `line`).
- `motion.dfy` (`Motion`) gives the target of every movement as a function,
  with lemmas about where each one lands.
- `buffer.dfy` (`BufferStore`), `window.dfy` (`WindowStore`) and `editor.dfy`
  (`EditorCore`) are classes over the same fields the Rust structs update in
  place.
- `movements.dfy` (`Movements`) and `editor_view.dfy` (`EditorView`) are
  methods on the editor. Each one is proved to leave the focused buffer's
  text and the focused window's cursor as the `Motion` functions say.
- `components.dfy`, `prompt.dfy`, and the `app_*.dfy` files model the
  `src/` crate and the prompt.

A panic that a user can reach by typing becomes an explicit outcome:
- an index past the end of the rope becomes `Aborted(RopeIndexOutOfRange)`;
- a `todo!()` becomes `Aborted(NotImplemented)`;
- an unsigned underflow, which panics in a debug build, becomes
  `Aborted(Underflow)` (a release build wraps around instead; see Left out).

A missing focused window is a precondition (`Editor.Ready`), although a user
can reach it: starting the program with no file opens no window, and the
`unwrap` on the focused window then panics (see Left out).

Panics that only a broken caller can reach also become preconditions:
- a cursor lookup for a window that has none;
- an index past the end of a legacy line.

## Model

| member | source | states |
|---|---|---|
| Unicode.CharWidth | core/src/text.rs:15-24 | a char takes at most two cells, and exactly two when it is East Asian wide and neither a control nor a combining mark |
| Text.Width | core/src/text.rs:15-24 | the display width of a slice is 0 on the empty slice and at most two cells per char |
| Text.WidthAppend | core/src/text.rs:15-24 | the width of a concatenation is the sum of the widths, so the `as_str` path and the collected-string path measure the same text |
| Text.NarrowWidth | core/src/text.rs:15-24 | on text without wide chars the width is at most the number of chars |
| Text.NextBoundary | core/src/text.rs:386-388 | the result is a cluster boundary strictly after the index (or the end when already there), with no boundary in between |
| Text.PrevBoundary | core/src/text.rs:391-393 | the result is a cluster boundary strictly before the index (or 0 when already there), with no boundary in between |
| Text.NextBoundaryNth | core/src/text.rs:302-341 | n forward steps stay between the start and the end, give the start for n = 0, and land on a boundary otherwise |
| Text.PrevBoundaryNth | core/src/text.rs:344-383 | n backward steps never pass the start index, give it back for n = 0, and land on a boundary otherwise |
| Text.NextNthIsCountthBoundary | core/src/text.rs:302-341 | the forward n-th search lands on the n-th boundary after the index, or on the end when fewer than n follow |
| Text.PrevNthIsCountthBoundary | core/src/text.rs:344-383 | the backward n-th search lands on the n-th boundary before the index, or on 0 when fewer than n precede it |
| Text.PrevOfNext | core/src/text.rs:386-393 | from a boundary before the end, a step forward and then back returns to it |
| Text.NextOfPrev | core/src/text.rs:386-393 | from a boundary after the start, a step back and then forward returns to it |
| Rope.InsertChar | core/src/movements.rs:130-131 | inserting into the chunk that holds the position gives the text with the char inserted there, with the same number of chunks |
| Rope.RemoveChar | core/src/movements.rs:165 | removing the range pos..pos+1 gives the text without that one char |
| Rope.SeekNext | core/src/text.rs:316-336 | walking the chunks forward from the cursor's chunk finds the next boundary and the chunk that contains it |
| Rope.SeekPrev | core/src/text.rs:358-378 | walking the chunks backward finds the previous boundary and the chunk that contains it |
| Rope.NextGraphemeBoundaryNth | core/src/text.rs:302-341 | the chunk-walking loop returns exactly the flat n-th forward boundary |
| Rope.PrevGraphemeBoundaryNth | core/src/text.rs:344-383 | the chunk-walking loop returns exactly the flat n-th backward boundary |
| Rope.NextGraphemeBoundary | core/src/text.rs:386-388 | is the flat next boundary |
| Rope.PrevGraphemeBoundary | core/src/text.rs:391-393 | is the flat previous boundary |
| Rope.NextNthStaysAtEnd | core/src/text.rs:316-319 | once the forward search reaches the end, more steps keep it there |
| Rope.PrevNthStaysAtStart | core/src/text.rs:358-361 | once the backward search reaches 0, more steps keep it there |
| Rope.RopeWidth | core/src/text.rs:15-24 | the width of a one-chunk rope and of a collected rope both equal the width of its text |
| Rope.Graphemes | core/src/text.rs:234-242 | the clusters of a text are non-empty and concatenate back to the text |
| Rope.ReadCluster | core/src/text.rs:262-297 | one step yields the slice from the cursor to the next boundary, taken from the current chunk or from the whole rope |
| Rope.RopeGraphemes.constructor | core/src/text.rs:245-255 | a new iterator starts at position 0 on the first chunk, having produced nothing |
| Rope.RopeGraphemes.Next | core/src/text.rs:261-298 | each call yields the next cluster and advances to its end; at the end it yields None, and the clusters produced are then all of the text's clusters in order |
| Lines.LenLines | core/src/window.rs:109 | a text has at least one line |
| Lines.CharToLine | core/src/window.rs:105 | the line of an index is a valid line |
| Lines.CharToLineMonotone | core/src/window.rs:105 | a later index is never on an earlier line |
| Lines.LineToChar | core/src/window.rs:115 | the start of line k is on line k, and every earlier index is on an earlier line |
| Lines.Line | core/src/window.rs:121 | line k holds exactly as many chars as lie between the starts of lines k and k+1 |
| Lines.LineOfIndex | core/src/window.rs:115-116 | every index lies between the start of its line and the start of the next, so the slice from line start to cursor is well formed |
| Lines.IndexOnLine | core/src/movements.rs:180-181 | an index between the starts of lines k and k+1 is on line k |
| Lines.LineEnds | core/src/movements.rs:207-208 | every line but the last ends with '\n', and no line holds a '\n' before its end |
| Motion.Span | core/src/movements.rs:21-23 | the cursor range runs from the new start to the next boundary, and is empty only at the end of the text |
| Motion.LineStart | core/src/movements.rs:180-181 | the start of the cursor's line is at or before the cursor, on the same line, and every earlier index is on an earlier line |
| Motion.UpLine | core/src/movements.rs:46-47 | one line up, saturating at the first line |
| Motion.DownLine | core/src/movements.rs:78-81 | one line down, staying on the last line |
| Motion.VerticalStaysOnNarrowLine | core/src/movements.rs:49-56 | on a target line without wide chars, the vertical target stays on that line and inside the text |
| Motion.VerticalColumn | core/src/movements.rs:43-56 | when every char of the target line other than '\n' takes one cell, the cursor lands at display column min(width of the target line, display column it left), measured from the target line's start |
| Motion.WideLineOvershoots | core/src/movements.rs:83-90 | a concrete text where moving down onto a line of wide chars lands on the line after it, because a display width is added to a char index |
| Motion.AfterNewlineIsLineStart | core/src/movements.rs:147-150 | the index after a '\n' starts the next line |
| Motion.TypeThenBackspace | core/src/movements.rs:121-166 | typing a char that forms its own cluster moves the cursor past it, and a backspace then removes it and returns the cursor |
| Motion.EndOfLineOnNewline | core/src/movements.rs:207-208 | on a line that is not the last, `$` lands on the '\n' (on the '\r' of a CRLF) rather than on the last visible char |
| Movements.MoveRightNth | core/src/movements.rs:10-26 | the focused cursor becomes the span at the n-th boundary after it; the text and the other cursors are unchanged |
| Movements.MoveRight | core/src/movements.rs:29-31 | the focused cursor becomes the span at the next boundary |
| Movements.MoveLeft | core/src/movements.rs:100-118 | the focused cursor becomes the span at the previous boundary |
| Movements.VerticalStep | core/src/movements.rs:34-97 | the cursor moves to the vertical target when it is inside the text; otherwise the step aborts and changes nothing |
| Movements.MoveVertically | core/src/movements.rs:34-97 | the same on the focused buffer and window |
| Movements.MoveUp | core/src/movements.rs:34-63 | moves to the vertical target on the line above, and fails exactly when that target is past the end |
| Movements.MoveDown | core/src/movements.rs:66-97 | moves to the vertical target on the line below, and fails exactly when that target is past the end |
| Movements.GotoStartOfLine | core/src/movements.rs:169-188 | the focused cursor becomes the span at the start of its line |
| Movements.GotoEndOfLine | core/src/movements.rs:191-215 | nothing changes on a line of width 0; otherwise the cursor goes to the last boundary before the next line's start |
| Movements.InsertAtCursor | core/src/movements.rs:122-131 | the char is inserted at the cursor start; the cursors are unchanged |
| Movements.InsertChar | core/src/movements.rs:121-134 | the char is inserted at the cursor, and the cursor moves to the next boundary of the new text |
| Movements.InsertNewLine | core/src/movements.rs:137-151 | a '\n' is inserted at the cursor; the step down that follows fails exactly when its target is past the end; otherwise the cursor goes to the start of the target's line |
| Movements.DeleteChar | core/src/movements.rs:154-166 | the cursor steps back one boundary to p; the char at p is removed when p is inside the text, and the removal fails exactly when p is at the end |
| Movements.NewLineLandsOnNextLineStart | core/src/movements.rs:137-151 | when the new line is narrow, Enter leaves the cursor exactly after the inserted '\n' |
| WindowStore.ScrollKeepsInView | core/src/window.rs:107-112 | with a scrolloff smaller than the view, the new offset keeps the caret inside the view |
| WindowStore.ScrollPastCaret | core/src/window.rs:107-112 | with a scrolloff at least the view size, the offset jumps to one past the caret's line |
| WindowStore.ScrollIdempotent | core/src/window.rs:107-112 | with twice the scrolloff smaller than the view, scrolling again with the same caret changes nothing |
| WindowStore.Window.constructor | core/src/window.rs:88-97 | a new window is unfocused with a zero offset |
| WindowStore.Window.PositionCursorInView | core/src/window.rs:99-129 | both offsets become the scrolled values for the caret's line and column; focus is untouched |
| WindowStore.Windows.constructor | core/src/window.rs:21-26 | no windows, none focused (`is_empty` holds) |
| WindowStore.Windows.IsEmpty | core/src/window.rs:65-67 | true exactly when no window is open, and then nothing can be focused |
| WindowStore.Windows.Add | core/src/window.rs:28-34 | appends a new unfocused window whose id is its index, over the shared area; focus is unchanged |
| WindowStore.Windows.Focus | core/src/window.rs:36-43 | an existing id becomes focused and its window's flag is set; other windows' flags are not cleared; an unknown id changes nothing |
| WindowStore.Windows.GetByBufferId | core/src/window.rs:45-47 | the first window showing the buffer, or None exactly when no window shows it |
| WindowStore.Windows.GetFocused | core/src/window.rs:49-55 | Some exactly when the focused id names an existing window, and then that window |
| BufferStore.Buffer.constructor | core/src/buffer.rs:79-98 | a buffer holds its id, text and path, with no cursors |
| BufferStore.Buffer.GetCursor | core/src/buffer.rs:108-110 | one of the cursors the buffer holds; looking up a window without a cursor panics in the source, so the window must have one (SetCursor's ensures read a written cursor back through it) |
| BufferStore.Buffer.SetCursor | core/src/buffer.rs:112-114 | the window's cursor is replaced; other cursors and the text are unchanged |
| BufferStore.Buffer.GetLine | core/src/buffer.rs:116-118 | Some exactly for a valid line index, and then the text of that line |
| BufferStore.Buffers.constructor | core/src/buffer.rs:26-31 | no buffers, next id 0 |
| BufferStore.Buffers.Add | core/src/buffer.rs:33-40 | appends a buffer with the next id, which then increases |
| BufferStore.Buffers.FindByFilePath | core/src/buffer.rs:42-51 | the id of the first buffer with that path, or None exactly when no buffer has it |
| BufferStore.Buffers.Get | core/src/buffer.rs:53-59 | the buffer with that id, or None exactly when there is none |
| EditorCore.CaretAt | core/src/editor.rs:62-80 | the caret's screen position is its line and column minus the offsets, and it aborts exactly when an offset passes the caret |
| EditorCore.ColumnWithinLine | core/src/window.rs:114-121 | the caret's column is at most the width of its line |
| EditorCore.CaretVisibleAfterScroll | core/src/window.rs:99-129 | after scrolling with a scrolloff smaller than the view, the caret's screen position exists and is inside the area |
| EditorCore.Editor.constructor | core/src/editor.rs:32-39 | Normal mode, not quitting, no buffers and no windows |
| EditorCore.Editor.Open | core/src/editor.rs:45-60 | an already open path gets a new focused window on its buffer; otherwise a read file becomes a new buffer in a new focused window; either new window starts at offset (0, 0); and a read error changes nothing; the windows open before keep their offsets and their `focused` flags, so a window focused earlier stays flagged |
| EditorCore.Editor.CursorPosition | core/src/editor.rs:62-80 | the focused caret's screen position, as CaretAt gives it (used by `cursor` at core/src/editor.rs:152-154) |
| Modes.Display | core/src/mode.rs:11-20 | each mode prints as its six-letter upper-case name |
| Modes.DisplayInjective | core/src/mode.rs:11-20 | different modes print differently |
| EditorView.PerformOnEditor | core/src/editor.rs:100-129 | the arms that change only the editor: quit, mode switches, no-ops and `todo!()` aborts |
| EditorView.PerformMove | core/src/editor.rs:100-129 | the arms that always succeed: right, left, `0`, `$` and typing a char |
| EditorView.PerformFallible | core/src/editor.rs:100-129 | the arms that can run past the rope: down, up, Enter and Backspace |
| EditorView.Perform | core/src/editor.rs:100-129 | the dispatched action has exactly the effect on mode, quit flag, text and cursor that the movement functions define, or fails for the reason it must |
| EditorView.HandleKeyEvents | core/src/editor.rs:91-136 | a key in the current mode is dispatched and performed; the focused window then scrolls with scrolloff 12, and the event is consumed |
| EditorView.HandleEvents | core/src/editor.rs:140-150 | a key press has exactly the effect `HandleKeyEvents` states (the mode, the text and cursor as the `Motion` functions say, the abort cases, the scroll); any other event is ignored and leaves mode, quit flag, focused text, cursors and offset unchanged |
| EditorView.UnsupportedExactly | core/src/editor.rs:115-128 | a key aborts as not implemented exactly for Esc in Normal mode and for every key in Visual and Search modes |
| EditorView.UnmappedKeysDoNothing | core/src/editor.rs:116-118 | in Normal mode any key outside `qlhjki0$` does nothing |
| EditorView.TypeThenDelete | core/src/editor.rs:121-123 | in Insert mode, a char that forms its own cluster followed by Backspace restores the text and the cursor |
| EditorView.EnterStartsNewLine | core/src/editor.rs:122 | Enter in Insert mode inserts '\n' and, when the new line is narrow, puts the cursor at its start |
| Components.ConsumedIffAnyConsume | src/components.rs:44-72 | the event counts as consumed exactly when some component answered Consume |
| Components.AllCallbacksCollected | src/components.rs:48-65 | when no component consumes with a callback, every callback is collected, topmost first |
| Components.CallbacksStopAtConsume | src/components.rs:55-59 | the callbacks collected are exactly those from the top down to the first component that consumes with a callback |
| Components.Components.constructor | src/components.rs:14-19 | an empty stack over the area |
| Components.Components.Resize | src/components.rs:25-27 | only the area changes |
| Components.Components.Push | src/components.rs:29-31 | the component goes on top |
| Components.Components.Cursor | src/components.rs:33-41 | the topmost component that places a cursor wins, and there is none exactly when no component places one |
| Components.Components.HandleEvents | src/components.rs:44-72 | the offering's consumed flag is returned; each collected prompt callback sets Normal mode and pops one component; the components' own effects on the editor are taken as already applied to the editor on entry |
| Prompt.Utf8Width | core/src/prompt.rs:64 | a char takes one to four bytes, and one exactly when it is ASCII |
| Prompt.Utf8Len | core/src/prompt.rs:64 | the byte length of the input is between its char count and four times it |
| Prompt.AsciiLen | core/src/prompt.rs:64 | on ASCII input the byte length is the char count |
| Prompt.Utf8LenAppend | core/src/prompt.rs:25-27 | byte lengths add up, so typing a char adds its UTF-8 width |
| Prompt.CommandPrompt.constructor | core/src/prompt.rs:15-17 | the input starts empty |
| Prompt.CommandPrompt.HandleKeyEvents | core/src/prompt.rs:19-47 | a char is appended; Backspace drops the last char; Enter aborts; Esc hands back the close callback; every other key is consumed |
| Prompt.CommandPrompt.HandleEvents | core/src/prompt.rs:19-60 | a key press edits the input as `HandleKeyEvents` states (a char is appended, Backspace pops, other keys keep it); Enter aborts as not implemented, Esc answers with the exit-prompt callback, everything else is consumed; any other event is ignored |
| Prompt.CommandPrompt.Cursor | core/src/prompt.rs:62-67 | on the last row, one column past the input's byte length; it underflows exactly on a zero-height area |
| AppGeometry.Vec2.Width | src/lib.rs:23-25 | a size's width is its x coordinate |
| AppGeometry.Vec2.Height | src/lib.rs:27-29 | a size's height is its y coordinate |
| AppGeometry.SizeRoundTrip | src/lib.rs:19-29 | `Vec2::new` of a size's width and height gives back that size |
| AppGeometry.NewRect | src/lib.rs:51-56 | the corners are the given coordinates |
| AppGeometry.FromCorners | src/lib.rs:58-63 | the same rectangle as NewRect on the corners' coordinates |
| AppGeometry.Width | src/lib.rs:69-71 | the left edge plus the width is the right edge |
| AppGeometry.Height | src/lib.rs:73-75 | the top edge plus the height is the bottom edge |
| AppGeometry.Area | src/lib.rs:65-67 | the area is 0 exactly for a flat rectangle, and otherwise at least the width and the height |
| AppGeometry.ZeroRectIsEmpty | src/lib.rs:46-49 | the zero rectangle has area 0 |
| AppGeometry.SizeRect | src/lib.rs:58-63 | a rectangle from the origin to a size has that size's width and height |
| AppMode.ExactlyOneTest | src/mode.rs:9-29 | exactly one `is_*` test holds for every mode, and each holds for its own mode |
| AppCursor.Cursor.constructor | src/cursor.rs:16-23 | the cursor starts at (0, 0) |
| AppCursor.Cursor.MoveCursor | src/cursor.rs:25-55 | up and left saturate at 0, down stops at row 9 of the ten stand-in lines, right always adds one; the row bound is preserved |
| AppFrame.ColumnOverflowWraps | src/frame.rs:43-52 | a column at or past the width addresses the cell on the next row |
| AppFrame.Frame.constructor | src/frame.rs:34-41 | a frame of area-many blank cells, with the cursor at (0, 0) |
| AppFrame.Frame.SetCell | src/frame.rs:43-52 | an index inside the grid sets that one cell, which `get_cell` then reads back; an index outside changes nothing |
| AppFrame.Frame.GetCell | src/frame.rs:50-52 | the cell at column x of row y of the row-major grid, at index y * width + x; the index must lie inside the grid; SetCell's ensures read a written cell back through it |
| AppFrame.Frame.SetCursorPosition | src/frame.rs:54-56 | the cursor position is set; the cells are unchanged |
| AppBuffer.NewLine | src/buffer.rs:12-17 | a new line renders as its content |
| AppBuffer.JoinedInsertChar | src/buffer.rs:65-68 | inserting into one line's render inserts at the matching index of the whole text |
| AppBuffer.JoinedDeleteChar | src/buffer.rs:93 | removing from one line's render removes at the matching index of the whole text |
| AppBuffer.JoinedInsertEmpty | src/buffer.rs:107-114 | inserting an empty line leaves the whole text unchanged |
| AppBuffer.JoinedSplit | src/buffer.rs:117-118 | splitting a line in two leaves the whole text unchanged |
| AppBuffer.JoinedMerge | src/buffer.rs:82-88 | appending a line to the one above leaves the whole text unchanged |
| AppBuffer.Buffer.constructor | src/buffer.rs:30-36 | no path, no lines, not dirty |
| AppBuffer.Buffer.GetLine | src/buffer.rs:49-51 | Some exactly for an index inside the buffer, and then that line |
| AppBuffer.Buffer.InsertCharacter | src/buffer.rs:57-72 | a line is appended when y is one past the end; the char goes in at the smaller of x and the line length; the buffer becomes dirty; the result is (x+1, y) |
| AppBuffer.Buffer.DeleteCharacter | src/buffer.rs:74-98 | (0, 0) changes nothing; at x = 0 the line merges into the one above, keeping the text, and the result is the old length of the line above, truncated to 16 bits; otherwise the char before x is removed and the buffer becomes dirty |
| AppBuffer.Buffer.InsertNewline | src/buffer.rs:100-121 | an empty line is added after or before the line, or the line is split at x; the text is kept, there is one more line, and the result is (0, y+1) |

## Left out

- Grapheme rules: only a subset of Unicode Standard Annex #29 is modelled. It covers the text ends, CR LF, breaks around controls, and no break before combining marks (U+0300..U+036F, U+302A..U+302D, U+3099..U+309A) and ZWJ. The rules for Hangul, emoji and regional indicators are not.
- Unicode.CharWidth: display width approximates the width table of Unicode Standard Annex #11 that `UnicodeWidthStr::width` uses; it is not a subset of it. Two cells: U+1100..U+115F, U+2E80..U+A4CF less U+303F, U+AC00..U+D7A3, U+F900..U+FAFF, U+FF00..U+FF60, U+FFE0..U+FFE6; zero cells: controls and the marks `IsExtend` lists. Known differences: unassigned or narrow code points inside U+2E80..U+A4CF take two cells here, zero-width marks outside the listed ranges (such as U+0591 and U+064B) take one, and wide characters outside the Basic Multilingual Plane (such as emoji) take one.
- Positions: rope positions are char indices, as ropey's are. The `GraphemeCursor` byte offsets are converted to char indices, so `RopeGraphemes` works on chars throughout.
- Lines: the rope's line index treats only '\n' as a line break. ropey also breaks on lone '\r' and on other Unicode line separators.
- Rope internals: the B-tree behind ropey is not modelled. A rope is a sequence of chunks, and an insert or remove edits the chunk that holds the position.
- `PreContext` requests of `GraphemeCursor`: the model has the whole text at hand, so no context is ever missing.
- Editor.Open: the file read is a parameter (`FileRead`), because file I/O is outside the model. `Rope::from_reader` errors become that parameter's error case.
- WindowStore.Windows.Add: every window gets the whole area. The source notes that a layout is planned; it does not tile either.
- Movements: `get_mut` and `get_focused_mut` are modelled by `Get` and `GetFocused`, which return the same object; Dafny's references give the mutable access.
- WindowStore.Window: the window's own `cursor` field is never read by the core and is kept only as a constant.
- The state after an abort is left unspecified. In the program an abort is a panic that ends the process.
- Movements.MoveVertically: the column is not remembered between vertical moves, exactly as in the source.
- Movements.DeleteChar: Backspace at position 0 removes the char at 0 when the text is not empty, because `move_left` stays at 0 and the removal still happens. The model keeps this.
- Components: components are open-ended trait objects. Their answers to one event (`Propagation`) and their cursor positions are taken as given sequences, indexed like the stack.
- BufferStore.Buffers.FindByFilePath: paths are compared as strings. Rust's `Path` equality compares path components, so spellings it identifies, such as `notes/a.txt`, `notes//a.txt` and `notes/./a.txt`, are distinct paths here. Opening a second spelling of an open file therefore creates a second buffer in EditorCore.Editor.Open, where the source reuses the first.
- Components: the only callback modelled is the prompt's Esc callback, the only one the program creates.
- Components.Components.HandleEvents: the components' own effects on the editor, which the program applies inside the offering loop (src/components.rs:51), are not part of this method. The editor it receives already carries them, so its mode and quit flag are "unchanged" only relative to that editor. EditorView.HandleEvents and Prompt.CommandPrompt.HandleEvents model those effects.
- The copies of the movement functions at core/src/text.rs:26-230 are identical to those in core/src/movements.rs, and are modelled once.
- Rendering (`render` methods, `RenderableText`, `PromptLine`), syntax highlighting, the terminal event loops and the status message are not part of this model, because they draw or do I/O.
- AppBuffer.Buffer: positions in the legacy buffer are char indices, while `String::insert` and `String::remove` take byte offsets. The two agree on ASCII text. A panic at a byte that is not a char boundary is not modelled.
- AppBuffer.Buffer.InsertCharacter: the panics on an out-of-range line (`unwrap`) and on `x + 1` overflowing `u16` are preconditions.
- AppBuffer.Buffer.DeleteCharacter: the panics on a missing line and on `x - 1` past the line's end are preconditions.
- AppBuffer.Buffer.InsertNewline: the panics on a missing line, on `x` past the line's end, and on `y + 1` overflowing `u16` are preconditions.
- `Buffer::from_file` and `get_line_mut` are left out: the first reads a file, and the second is the mutable form of `get_line`.
- AppCursor.Cursor.MoveCursor: `cx += 1` is unbounded here; the `usize` overflow panic is not modelled.
- AppFrame.Frame.SetCell: the index `y * width + x` is unbounded here; `usize` overflow is not modelled.
- AppFrame.Frame.GetCell: indexing outside the grid panics in the source; here it is a precondition.
- EditorCore.CaretAt: the subtraction of the window offset underflows in the source when the offset passes the caret. A debug build panics, which is modelled as `Aborted(Underflow)`; CaretVisibleAfterScroll shows it cannot happen right after scrolling. A release build wraps around instead and src/app.rs:115 truncates the result with `as u16`; that wrapped position is not modelled.
- Prompt.CommandPrompt.Cursor: `area.height - 1` on a zero-height area panics in a debug build, modelled as `Aborted(Underflow)`; the release build's wrap-around and the later `as u16` truncation are not modelled.
- EditorCore.Editor.Ready: a session started with no file (the file list at core/src/cli.rs:9 may be empty) opens no window, and the source then panics at the `unwrap` in core/src/editor.rs:63 and :131. The model requires a focused window instead of modelling that panic.
- EditorView.HandleKeyEvents: `Consume(None)` from the editor view does not stop the component stack from collecting callbacks from the components below it. Only a consuming answer with a callback stops it, as the source's loop does.
- Integer widths: `usize` arithmetic in the core is unbounded here. Only the `u16` results of the legacy buffer are bounded.

=== FILE: app_buffer.dfy ===
/**
 * The front end's line buffer (src/buffer.rs): a list of lines, each kept
 * twice (as read and as edited), edited at (x, y) coordinates given as
 * 16-bit numbers. Positions count chars. The calls that would panic (a
 * missing line, an index past a line's end, a coordinate past the 16-bit
 * range) are preconditions.
 */
module AppBuffer {
  import opened Wrappers
  import opened Text

  /** The range of `u16`. */
  const U16Limit: nat := 0x1_0000

  type U16 = n: nat | n < U16Limit

  /** `Line`: the text as read (`content`) and the text as edited and drawn (`render`). */
  datatype Line = Line(content: string, render: string)

  /** `Line::new`: a line whose drawn text is the text it was made from. */
  function NewLine(content: string): (l: Line)
    ensures l.render == content && l.content == content
  {
    Line(content, content)
  }

  /** All drawn text of a list of lines, in order. */
  function Joined(lines: seq<Line>): string {
    if lines == [] then [] else Joined(lines[..|lines| - 1]) + lines[|lines| - 1].render
  }

  lemma {:induction false} JoinedAppend(a: seq<Line>, b: seq<Line>)
    ensures Joined(a + b) == Joined(a) + Joined(b)
    decreases |b|
  {
    if b == [] {
      assert a + b == a;
    } else {
      assert (a + b)[..|a + b| - 1] == a + b[..|b| - 1];
      JoinedAppend(a, b[..|b| - 1]);
    }
  }

  /** The drawn text of a single line. */
  lemma JoinedOne(l: Line)
    ensures Joined([l]) == l.render
  {
    assert [l][..0] == [];
  }

  /** Joined text with line l placed between two lists of lines. */
  lemma JoinedSplice(pre: seq<Line>, l: Line, post: seq<Line>)
    ensures Joined(pre + [l] + post) == Joined(pre) + l.render + Joined(post)
  {
    JoinedAppend(pre + [l], post);
    JoinedAppend(pre, [l]);
    JoinedOne(l);
  }

  /** Joined text of a nonempty list: its first line, then the rest. */
  lemma JoinedHead(lines: seq<Line>)
    requires lines != []
    ensures Joined(lines) == lines[0].render + Joined(lines[1..])
  {
    assert [lines[0]] + lines[1..] == lines;
    JoinedAppend([lines[0]], lines[1..]);
    JoinedOne(lines[0]);
  }

  /** Joined text around line y: what comes before it, the line, what comes after. */
  lemma JoinedAround(lines: seq<Line>, y: nat)
    requires y < |lines|
    ensures Joined(lines) == Joined(lines[..y]) + lines[y].render + Joined(lines[y + 1..])
  {
    var rest := lines[y..];
    assert lines[..y] + rest == lines;
    JoinedAppend(lines[..y], rest);
    JoinedHead(rest);
    assert rest[0] == lines[y] && rest[1..] == lines[y + 1..];
  }

  /** Where line y's drawn text starts in the joined text of all lines. */
  function LineStartIn(lines: seq<Line>, y: nat): (k: nat)
    requires y < |lines|
    ensures k + |lines[y].render| <= |Joined(lines)|
    ensures Joined(lines)[k..k + |lines[y].render|] == lines[y].render
  {
    JoinedAround(lines, y);
    |Joined(lines[..y])|
  }

  /** Replacing line y's drawn text by r changes the joined text in line y's place only. */
  lemma {:induction false} JoinedReplace(lines: seq<Line>, y: nat, l: Line)
    requires y < |lines|
    ensures Joined(lines[y := l]) == Joined(lines[..y]) + l.render + Joined(lines[y + 1..])
  {
    var u := lines[y := l];
    assert u == lines[..y] + [l] + lines[y + 1..];
    JoinedSplice(lines[..y], l, lines[y + 1..]);
  }

  /** Inserting into the middle part of a three-part text, seen from the whole text. */
  lemma InsertInMiddle(pre: string, r: string, post: string, at: nat, c: char)
    requires at <= |r|
    ensures var j := pre + r + post;
      pre + (r[..at] + [c] + r[at..]) + post == j[..|pre| + at] + [c] + j[|pre| + at..]
  {
    var j := pre + r + post;
    assert r == r[..at] + r[at..];
    assert j == (pre + r[..at]) + (r[at..] + post);
    assert j[..|pre| + at] == pre + r[..at];
    assert j[|pre| + at..] == r[at..] + post;
  }

  /** Deleting from the middle part of a three-part text, seen from the whole text. */
  lemma DeleteInMiddle(pre: string, r: string, post: string, at: nat)
    requires at < |r|
    ensures var j := pre + r + post;
      pre + (r[..at] + r[at + 1..]) + post == j[..|pre| + at] + j[|pre| + at + 1..]
  {
    var j := pre + r + post;
    assert r == r[..at] + r[at..];
    assert j == (pre + r[..at]) + (r[at..] + post);
    assert j[..|pre| + at] == pre + r[..at];
    assert j[|pre| + at..] == r[at..] + post;
    assert (r[at..] + post)[1..] == r[at + 1..] + post;
  }

  /** Putting c into line y's drawn text at `at` puts it into the joined text at the matching index. */
  lemma {:induction false} JoinedInsertChar(lines: seq<Line>, y: nat, at: nat, c: char)
    requires y < |lines| && at <= |lines[y].render|
    ensures var line := lines[y];
      var k := LineStartIn(lines, y) + at;
      var j := Joined(lines);
      Joined(lines[y := Line(line.content, line.render[..at] + [c] + line.render[at..])]) == j[..k] + [c] + j[k..]
  {
    var line := lines[y];
    JoinedAround(lines, y);
    JoinedReplace(lines, y, Line(line.content, line.render[..at] + [c] + line.render[at..]));
    InsertInMiddle(Joined(lines[..y]), line.render, Joined(lines[y + 1..]), at, c);
  }

  /** Removing the char at `at` from line y's drawn text removes it from the joined text at the matching index. */
  lemma {:induction false} JoinedDeleteChar(lines: seq<Line>, y: nat, at: nat)
    requires y < |lines| && at < |lines[y].render|
    ensures var line := lines[y];
      var k := LineStartIn(lines, y) + at;
      var j := Joined(lines);
      Joined(lines[y := Line(line.content, line.render[..at] + line.render[at + 1..])]) == j[..k] + j[k + 1..]
  {
    var line := lines[y];
    JoinedAround(lines, y);
    JoinedReplace(lines, y, Line(line.content, line.render[..at] + line.render[at + 1..]));
    DeleteInMiddle(Joined(lines[..y]), line.render, Joined(lines[y + 1..]), at);
  }

  /** An empty line inserted at index i adds no drawn text. */
  lemma {:induction false} JoinedInsertEmpty(lines: seq<Line>, i: nat)
    requires i <= |lines|
    ensures Joined(lines[..i] + [NewLine("")] + lines[i..]) == Joined(lines)
  {
    JoinedSplice(lines[..i], NewLine(""), lines[i..]);
    JoinedAppend(lines[..i], lines[i..]);
    assert lines[..i] + lines[i..] == lines;
  }

  /** Splitting line y at x into two lines keeps the joined text. */
  lemma {:induction false} JoinedSplit(lines: seq<Line>, y: nat, x: nat)
    requires y < |lines| && x <= |lines[y].render|
    ensures var line := lines[y];
      Joined(lines[..y] + [Line(line.content, line.render[..x]), NewLine(line.render[x..])] + lines[y + 1..]) == Joined(lines)
  {
    var line := lines[y];
    var left, right := Line(line.content, line.render[..x]), NewLine(line.render[x..]);
    assert lines[..y] + [left, right] + lines[y + 1..] == (lines[..y] + [left]) + [right] + lines[y + 1..];
    JoinedSplice(lines[..y] + [left], right, lines[y + 1..]);
    JoinedAppend(lines[..y], [left]);
    JoinedOne(left);
    JoinedAround(lines, y);
    assert line.render == line.render[..x] + line.render[x..];
  }

  /** Joining line y onto line y - 1 keeps the joined text. */
  lemma {:induction false} JoinedMerge(lines: seq<Line>, y: nat)
    requires 0 < y < |lines|
    ensures var above := lines[y - 1];
      Joined(lines[..y - 1] + [Line(above.content, above.render + lines[y].render)] + lines[y + 1..]) == Joined(lines)
  {
    var above := lines[y - 1];
    JoinedSplice(lines[..y - 1], Line(above.content, above.render + lines[y].render), lines[y + 1..]);
    JoinedAround(lines, y);
    JoinedAround(lines[..y], y - 1);
    assert lines[..y][..y - 1] == lines[..y - 1];
    assert lines[..y][y..] == [];
  }

  class Buffer {
    const filePath: Option<string>
    var content: seq<Line>
    var isDirty: bool

    /** `Buffer::new`: no path, no lines, not dirty. */
    constructor()
      ensures filePath == None && content == [] && !isDirty
    {
      filePath := None;
      content := [];
      isDirty := false;
    }

    /** `get_line`: the line at index, if there is one. */
    function GetLine(index: nat): (r: Option<Line>)
      reads this
      ensures r.Some? <==> index < |content|
      ensures r.Some? ==> r.value == content[index]
    {
      if index < |content| then Some(content[index]) else None
    }

    /**
     * `insert_character`: on the row just past the last line, first add an
     * empty line; then put c into line y's drawn text at x, or at its end
     * when x is past it, and mark the buffer dirty. The reported column is
     * x + 1 even when x was past the end.
     */
    method InsertCharacter(c: char, x: U16, y: U16) returns (r: (U16, U16))
      requires y <= |content|
      requires x + 1 < U16Limit
      modifies this
      ensures var base := if y == |old(content)| then old(content) + [NewLine("")] else old(content);
        var line := base[y];
        var at := Min(x, |line.render|);
        var k := LineStartIn(base, y) + at;
        content == base[y := Line(line.content, line.render[..at] + [c] + line.render[at..])]
        && Joined(content) == Joined(base)[..k] + [c] + Joined(base)[k..]
      ensures isDirty && r == (x + 1, y)
    {
      if y == |content| {
        content := content + [NewLine("")];
      }
      ghost var base := content;
      var line := content[y];
      var at := Min(x, |line.render|);
      JoinedInsertChar(content, y, at, c);
      content := content[y := Line(line.content, line.render[..at] + [c] + line.render[at..])];
      isDirty := true;
      r := (x + 1, y);
    }

    /**
     * `delete_character`: at (0, 0) nothing happens. At the start of any
     * other line, that line is joined onto the one above, the cursor goes to
     * the join (its column cast back to 16 bits) and the dirty flag is left
     * as it was. Otherwise the char before x on line y is removed and the
     * buffer is marked dirty.
     */
    method DeleteCharacter(x: U16, y: U16) returns (r: (U16, U16))
      requires (x == 0 && y == 0) || y < |content|
      requires x > 0 ==> x <= |content[y].render|
      modifies this
      ensures x == 0 && y == 0 ==> content == old(content) && isDirty == old(isDirty) && r == (0, 0)
      ensures x == 0 && y > 0 ==>
        var above := old(content)[y - 1];
        |content| == |old(content)| - 1
        && content == old(content)[..y - 1] + [Line(above.content, above.render + old(content)[y].render)] + old(content)[y + 1..]
        && Joined(content) == Joined(old(content))
        && isDirty == old(isDirty)
        && r == (|above.render| % U16Limit, y - 1)
      ensures x > 0 ==>
        var line := old(content)[y];
        var k := LineStartIn(old(content), y) + x - 1;
        content == old(content)[y := Line(line.content, line.render[..x - 1] + line.render[x..])]
        && Joined(content) == Joined(old(content))[..k] + Joined(old(content))[k + 1..]
        && isDirty && r == (x - 1, y)
    {
      if x == 0 && y == 0 {
        return (0, 0);
      }
      if x == 0 && y != 0 {
        var line := content[y].render;
        var prevLine := content[y - 1];
        var prevLineLen := |prevLine.render|;
        JoinedMerge(content, y);
        content := content[..y - 1] + [Line(prevLine.content, prevLine.render + line)] + content[y + 1..];
        return (prevLineLen % U16Limit, y - 1);
      }
      var line := content[y];
      JoinedDeleteChar(content, y, x - 1);
      content := content[y := Line(line.content, line.render[..x - 1] + line.render[x..])];
      isDirty := true;
      return (x - 1, y);
    }

    /**
     * `insert_newline`: at the end of line y an empty line follows it; at
     * its start an empty line goes before it; elsewhere the line is split at
     * x, its drawn text keeping the left part and a new line holding the
     * right part. The cursor goes to the start of row y + 1 and the dirty
     * flag is left as it was.
     */
    method InsertNewline(x: U16, y: U16) returns (r: (U16, U16))
      requires y < |content| && x <= |content[y].render|
      requires y + 1 < U16Limit
      modifies this
      ensures var line := old(content)[y];
        (x == |line.render| ==> content == old(content)[..y + 1] + [NewLine("")] + old(content)[y + 1..])
        && (x != |line.render| && x == 0 ==> content == old(content)[..y] + [NewLine("")] + old(content)[y..])
        && (0 < x < |line.render| ==>
              content == old(content)[..y] + [Line(line.content, line.render[..x]), NewLine(line.render[x..])] + old(content)[y + 1..])
      ensures |content| == |old(content)| + 1 && Joined(content) == Joined(old(content))
      ensures isDirty == old(isDirty) && r == (0, y + 1)
    {
      var line := content[y];
      var lineLen := |line.render|;
      if x == lineLen {
        JoinedInsertEmpty(content, y + 1);
        content := content[..y + 1] + [NewLine("")] + content[y + 1..];
        return (0, y + 1);
      }
      if x == 0 {
        JoinedInsertEmpty(content, y);
        content := content[..y] + [NewLine("")] + content[y..];
        return (0, y + 1);
      }
      var right := line.render[x..];
      JoinedSplit(content, y, x);
      content := content[..y] + [Line(line.content, line.render[..x]), NewLine(right)] + content[y + 1..];
      return (0, y + 1);
    }
  }
}

=== FILE: app_cursor.dfy ===
/**
 * The front end's cursor (src/cursor.rs): a column and a row moved one step
 * at a time. The row is bounded by a fixed stand-in of ten lines; the column
 * has no upper bound.
 */
module AppCursor {
  import opened Layout

  datatype Direction = Up | Down | Left | Right

  /** The length of the fixed line array `move_cursor` checks the row against. */
  const StandInLines: nat := 10

  class Cursor {
    var cx: nat
    var cy: nat

    /** The row stays on one of the stand-in lines. */
    predicate Valid()
      reads this
    {
      cy <= StandInLines - 1
    }

    /** `Cursor::new`: the top left corner. */
    constructor()
      ensures cx == 0 && cy == 0 && Valid()
    {
      cx := 0;
      cy := 0;
    }

    /**
     * `move_cursor`: Up and Left step back, stopping at 0; Down steps only
     * while below the last stand-in line; Right always steps. Exactly the
     * named coordinate may change, and the row bound is kept.
     */
    method MoveCursor(direction: Direction)
      modifies this
      ensures old(Valid()) ==> Valid()
      ensures direction == Up ==> cy == SatSub(old(cy), 1) && cx == old(cx)
      ensures direction == Down ==> cy == (if old(cy) < StandInLines - 1 then old(cy) + 1 else old(cy)) && cx == old(cx)
      ensures direction == Left ==> cx == SatSub(old(cx), 1) && cy == old(cy)
      ensures direction == Right ==> cx == old(cx) + 1 && cy == old(cy)
    {
      match direction {
        case Up =>
          cy := SatSub(cy, 1);
        case Down =>
          if cy < SatSub(StandInLines, 1) {
            cy := cy + 1;
          }
        case Left =>
          cx := SatSub(cx, 1);
        case Right =>
          cx := cx + 1;
      }
    }
  }
}

=== FILE: app_frame.dfy ===
/**
 * The front end's frame (src/frame.rs): one cell per position of a
 * rectangle, stored row by row, and the caret position to draw.
 */
module AppFrame {
  import opened Wrappers
  import opened AppGeometry

  /** `Cell`: the symbol shown in one position. */
  datatype Cell = Cell(symbol: string)

  /** `Cell::default`: a blank. */
  const Blank := Cell(" ")

  /** The index of (x, y) in a row-by-row layout of rows `width` cells long. */
  function CellIndex(width: nat, x: nat, y: nat): nat {
    y * width + x
  }

  /**
   * The index has no column check: a column at or past the width lands in
   * a later row.
   */
  lemma ColumnOverflowWraps(width: nat, x: nat, y: nat)
    requires width <= x
    ensures CellIndex(width, x, y) == CellIndex(width, x - width, y + 1)
  {
  }

  class Frame {
    var cursorPosition: Option<(nat, nat)>
    const size: Rect
    const cells: array<Cell>

    /** `Frame::new`: a blank cell for every position of `size`, caret at the origin. */
    constructor(size: Rect)
      requires Ordered(size)
      ensures this.size == size && fresh(cells)
      ensures cells.Length == Area(size)
      ensures forall i :: 0 <= i < cells.Length ==> cells[i] == Blank
      ensures cursorPosition == Some((0, 0))
    {
      this.size := size;
      cells := new Cell[Area(size)](_ => Blank);
      cursorPosition := Some((0, 0));
    }

    /**
     * `set_cell`: write the symbol at (x, y) when that index is inside the
     * cells, and do nothing otherwise. No other cell changes, and reading
     * (x, y) back gives the symbol.
     */
    method SetCell(x: nat, y: nat, symbol: string)
      requires Ordered(size)
      modifies cells
      ensures var i := CellIndex(Width(size), x, y);
        (i < cells.Length ==> cells[..] == old(cells[..])[i := Cell(symbol)] && GetCell(x, y) == Cell(symbol))
        && (i >= cells.Length ==> cells[..] == old(cells[..]))
    {
      var index := y * Width(size) + x;
      if index < cells.Length {
        cells[index] := Cell(symbol);
      }
    }

    /**
     * `get_cell`: the cell at column x of row y, the cells being stored row
     * by row; indexing past the cells aborts, so the index must be inside.
     */
    function GetCell(x: nat, y: nat): (c: Cell)
      reads this, cells
      requires Ordered(size) && CellIndex(Width(size), x, y) < cells.Length
      ensures c == cells[y * Width(size) + x]
    {
      cells[CellIndex(Width(size), x, y)]
    }

    /** `set_cursor_position`: only the caret position changes. */
    method SetCursorPosition(x: nat, y: nat)
      modifies this
      ensures cursorPosition == Some((x, y))
      ensures cells[..] == old(cells[..])
    {
      cursorPosition := Some((x, y));
    }
  }
}

=== FILE: app_geometry.dfy ===
/**
 * Plain geometry of the terminal front end (src/lib.rs): a pair of
 * coordinates and a rectangle given by two corners.
 */
module AppGeometry {

  /** `Vec2`: a point, or a size read as width and height. */
  datatype Vec2 = Vec2(x: nat, y: nat) {
    /** `Vec2::width`: a size's width is its x coordinate. */
    function Width(): (w: nat)
      ensures w == x
    {
      x
    }

    /** `Vec2::height`: a size's height is its y coordinate. */
    function Height(): (h: nat)
      ensures h == y
    {
      y
    }
  }

  /** `Vec2::new` from a size's width and height gives back that size. */
  lemma SizeRoundTrip(v: Vec2)
    ensures Vec2(v.Width(), v.Height()) == v
  {
  }

  /** `Vec2::ZERO`. */
  const Vec2Zero := Vec2(0, 0)

  /** `Rect`: the corner at `min` (normally top left) and the corner at `max`. */
  datatype Rect = Rect(min: Vec2, max: Vec2)

  /** `Rect::ZERO`: both corners at the origin. */
  const RectZero := Rect(Vec2Zero, Vec2Zero)

  /** `Rect::new`: the rectangle from (x0, y0) to (x1, y1). */
  function NewRect(x0: nat, y0: nat, x1: nat, y1: nat): (r: Rect)
    ensures r.min.x == x0 && r.min.y == y0 && r.max.x == x1 && r.max.y == y1
  {
    Rect(Vec2(x0, y0), Vec2(x1, y1))
  }

  /** `Rect::from_corners`: the same rectangle as NewRect of the corners' coordinates. */
  function FromCorners(corner0: Vec2, corner1: Vec2): (r: Rect)
    ensures r == NewRect(corner0.x, corner0.y, corner1.x, corner1.y)
  {
    Rect(corner0, corner1)
  }

  /** The corners are in order on both axes, so the unsigned subtractions of Width and Height succeed. */
  predicate Ordered(r: Rect) {
    r.min.x <= r.max.x && r.min.y <= r.max.y
  }

  /** `Rect::width`: how far `max` lies right of `min`. */
  function Width(r: Rect): (w: nat)
    requires r.min.x <= r.max.x
    ensures r.min.x + w == r.max.x
  {
    r.max.x - r.min.x
  }

  /** `Rect::height`: how far `max` lies below `min`. */
  function Height(r: Rect): (h: nat)
    requires r.min.y <= r.max.y
    ensures r.min.y + h == r.max.y
  {
    r.max.y - r.min.y
  }

  /**
   * `Rect::area`: the number of cells, which is zero exactly when the
   * rectangle is flat on one axis, and which never falls below either side.
   */
  function Area(r: Rect): (a: nat)
    requires Ordered(r)
    ensures a == 0 <==> r.min.x == r.max.x || r.min.y == r.max.y
    ensures a != 0 ==> Width(r) <= a && Height(r) <= a
  {
    Width(r) * Height(r)
  }

  /** `Rect::ZERO` is ordered and has no cells. */
  lemma ZeroRectIsEmpty()
    ensures Ordered(RectZero) && Area(RectZero) == 0
  {
  }

  /** A rectangle from the origin to a size vector has that vector's width and height. */
  lemma SizeRect(size: Vec2)
    ensures var r := FromCorners(Vec2Zero, size);
      Ordered(r) && Width(r) == size.Width() && Height(r) == size.Height()
  {
  }
}

=== FILE: app_mode.dfy ===
/** The front end's modes (src/mode.rs) and their one-mode tests. */
module AppMode {

  datatype Mode = Normal | Insert | Command | Visual | VisualLine

  /** `is_insert`. */
  predicate IsInsert(m: Mode) { m.Insert? }

  /** `is_normal`. */
  predicate IsNormal(m: Mode) { m.Normal? }

  /** `is_command`. */
  predicate IsCommand(m: Mode) { m.Command? }

  /** `is_visual`. */
  predicate IsVisual(m: Mode) { m.Visual? }

  /** `is_visual_line`. */
  predicate IsVisualLine(m: Mode) { m.VisualLine? }

  /** How many of the five tests hold of m. */
  function TestsHolding(m: Mode): nat {
    (if IsInsert(m) then 1 else 0) + (if IsNormal(m) then 1 else 0) + (if IsCommand(m) then 1 else 0)
    + (if IsVisual(m) then 1 else 0) + (if IsVisualLine(m) then 1 else 0)
  }

  /** Every mode passes exactly one test, and each test picks out its own mode. */
  lemma ExactlyOneTest(m: Mode)
    ensures TestsHolding(m) == 1
    ensures IsInsert(m) <==> m == Insert
    ensures IsNormal(m) <==> m == Normal
    ensures IsCommand(m) <==> m == Command
    ensures IsVisual(m) <==> m == Visual
    ensures IsVisualLine(m) <==> m == VisualLine
  {
  }
}

=== FILE: buffer.dfy ===
/**
 * Open documents and their registry (core/src/buffer.rs). A buffer holds a
 * rope, the optional path it was read from and one cursor per window that
 * shows it; the registry hands out ids from a counter and finds buffers by
 * id or by path.
 */
module BufferStore {
  import opened Wrappers
  import opened Rope
  import opened Lines
  import opened Motion

  class Buffer {
    const id: nat
    var content: Rope
    /** One cursor per window id (`HashMap<WindowId, Cursor>`). */
    var cursors: map<nat, Cursor>
    const filePath: Option<string>

    /** `Buffer::new`: the given id, text and path, and no cursors yet. */
    constructor(id: nat, content: Rope, filePath: Option<string>)
      ensures this.id == id && this.content == content && this.filePath == filePath
      ensures cursors == map[]
    {
      this.id := id;
      this.content := content;
      this.filePath := filePath;
      this.cursors := map[];
    }

    /** `get_cursor`: the cursor of a window; indexing a missing key panics, so the key must be present. */
    function GetCursor(windowId: nat): (c: Cursor)
      reads this
      requires windowId in cursors
      ensures c in cursors.Values
    {
      cursors[windowId]
    }

    /** `set_cursor`: insert or overwrite this window's entry only; reading it back gives the new cursor. */
    method SetCursor(windowId: nat, cursor: Cursor)
      modifies this
      ensures cursors == old(cursors)[windowId := cursor]
      ensures content == old(content)
      ensures GetCursor(windowId) == cursor
      ensures forall w :: w in old(cursors) && w != windowId ==> w in cursors && GetCursor(w) == old(cursors[w])
    {
      cursors := cursors[windowId := cursor];
    }

    /** `get_line`: line `index` of the text, or None at or past the line count. */
    function GetLine(index: nat): (l: Option<seq<char>>)
      reads this
      ensures l.Some? <==> index < LenLines(Contents(content))
      ensures l.Some? ==> LineToChar(Contents(content), index) + |l.value| == LineToChar(Contents(content), index + 1)
      ensures l.Some? ==> l.value == Line(Contents(content), index)
    {
      var t := Contents(content);
      if index < LenLines(t) then Some(Line(t, index)) else None
    }
  }

  /** The registry: buffers in creation order and the next id to hand out. */
  class Buffers {
    var buffers: seq<Buffer>
    var nextBufferId: nat

    /** Ids are handed out in order, so buffer i has id i and the counter is the count. */
    ghost predicate Valid()
      reads this
    {
      nextBufferId == |buffers|
      && forall i :: 0 <= i < |buffers| ==> buffers[i].id == i
    }

    /** `Buffers::new`: no buffers, counter 0. */
    constructor()
      ensures Valid() && buffers == [] && nextBufferId == 0
    {
      buffers := [];
      nextBufferId := 0;
    }

    /**
     * `add`: take the counter as the new id, bump it, and append a new buffer
     * with that id; earlier buffers stay as they were.
     */
    method Add(content: Rope, filePath: Option<string>) returns (id: nat)
      requires Valid()
      modifies this
      ensures Valid()
      ensures id == old(nextBufferId) && nextBufferId == id + 1
      ensures |buffers| == |old(buffers)| + 1 && buffers[..id] == old(buffers)
      ensures fresh(buffers[id])
      ensures buffers[id].content == content && buffers[id].filePath == filePath && buffers[id].cursors == map[]
    {
      id := nextBufferId;
      nextBufferId := nextBufferId + 1;
      var b := new Buffer(id, content, filePath);
      buffers := buffers + [b];
    }

    /**
     * `find_by_file_path`: the id of the first buffer whose path equals
     * `path`; buffers without a path never match. Paths are compared as
     * strings, not component by component as `Path` equality does.
     */
    method FindByFilePath(path: string) returns (r: Option<nat>)
      requires Valid()
      ensures r.Some? ==> r.value < |buffers| && buffers[r.value].filePath == Some(path)
      ensures r.Some? ==> forall j :: 0 <= j < r.value ==> buffers[j].filePath != Some(path)
      ensures r.None? <==> forall j :: 0 <= j < |buffers| ==> buffers[j].filePath != Some(path)
    {
      var i := 0;
      while i < |buffers|
        invariant 0 <= i <= |buffers|
        invariant forall j :: 0 <= j < i ==> buffers[j].filePath != Some(path)
      {
        var b := buffers[i];
        if b.filePath.Some? && b.filePath.value == path {
          return Some(b.id);
        }
        i := i + 1;
      }
      return None;
    }

    /**
     * `get` / `get_mut`: the buffer whose id is `id`, found by a scan, or None.
     * Both hand out the same object, which callers may then change.
     */
    method Get(id: nat) returns (r: Option<Buffer>)
      ensures r.Some? ==> r.value in buffers && r.value.id == id
      ensures r.None? <==> forall j :: 0 <= j < |buffers| ==> buffers[j].id != id
      ensures Valid() ==> (r.Some? <==> id < |buffers|) && (r.Some? ==> r.value == buffers[id])
    {
      var i := 0;
      while i < |buffers|
        invariant 0 <= i <= |buffers|
        invariant forall j :: 0 <= j < i ==> buffers[j].id != id
        invariant Valid() ==> i <= id
      {
        if buffers[i].id == id {
          return Some(buffers[i]);
        }
        i := i + 1;
      }
      return None;
    }
  }
}

=== FILE: components.dfy ===
/**
 * The component stack (src/components.rs): components are pushed on top,
 * events are offered from the top down, each component answers whether it
 * ignores or consumes the event and may hand back a callback, and the
 * callbacks run once the offering is over. The components themselves are
 * open-ended, so the model takes their answers to one event as a given
 * sequence, indexed like the stack.
 */
module Components {
  import opened Wrappers
  import opened Layout
  import opened Modes
  import opened Text
  import opened EditorCore

  /** The key codes the handlers tell apart; every other code is OtherKey. */
  datatype Key = Char(c: char) | Enter | Backspace | Esc | OtherKey(code: nat)

  /** A terminal event: a key press, or anything else (mouse, resize, focus, paste). */
  datatype Event = KeyPress(key: Key) | OtherEvent

  /**
   * The callbacks components hand back. The program has one: the command
   * prompt's Esc callback, which sets the editor to Normal mode and pops the
   * top component.
   */
  datatype Callback = ExitPrompt

  /** `EventPropagation`: a component's answer to an event. */
  datatype Propagation = Ignore(callback: Option<Callback>) | Consume(callback: Option<Callback>)

  /**
   * Offering an event to the components at indices i-1 down to 0 (top
   * first) whose answers are `responses`: the callbacks collected, in the
   * order collected, and whether any visited component consumed it. Only a
   * consuming answer with a callback stops the offering.
   */
  function OfferFrom(responses: seq<Propagation>, i: nat): (seq<Callback>, bool)
    requires i <= |responses|
  {
    if i == 0 then ([], false)
    else
      match responses[i - 1]
      case Consume(Some(cb)) => ([cb], true)
      case Consume(None) => (OfferFrom(responses, i - 1).0, true)
      case Ignore(Some(cb)) =>
        var rest := OfferFrom(responses, i - 1);
        ([cb] + rest.0, rest.1)
      case Ignore(None) => OfferFrom(responses, i - 1)
  }

  /** The callbacks of the answers at indices hi-1 down to lo, top first. */
  function CallbacksIn(responses: seq<Propagation>, lo: nat, hi: nat): seq<Callback>
    requires lo <= hi <= |responses|
    decreases hi
  {
    if hi == lo then []
    else
      var rest := CallbacksIn(responses, lo, hi - 1);
      if responses[hi - 1].callback.Some? then [responses[hi - 1].callback.value] + rest else rest
  }

  /**
   * The event counts as consumed exactly when some component below i
   * answered Consume: the first such answer is always reached, since only a
   * Consume answer stops the offering.
   */
  lemma {:induction false} ConsumedIffAnyConsume(responses: seq<Propagation>, i: nat)
    requires i <= |responses|
    ensures OfferFrom(responses, i).1 <==> exists j :: 0 <= j < i && responses[j].Consume?
  {
    if i > 0 {
      ConsumedIffAnyConsume(responses, i - 1);
    }
  }

  /**
   * Without a consuming answer with a callback, every callback below i is
   * collected, top first.
   */
  lemma {:induction false} AllCallbacksCollected(responses: seq<Propagation>, i: nat)
    requires i <= |responses|
    requires forall j :: 0 <= j < i ==> !(responses[j].Consume? && responses[j].callback.Some?)
    ensures OfferFrom(responses, i).0 == CallbacksIn(responses, 0, i)
  {
    if i > 0 {
      AllCallbacksCollected(responses, i - 1);
    }
  }

  /**
   * With k the topmost consuming answer with a callback below i, exactly the
   * callbacks from i-1 down to k are collected: the components under k never
   * see the event.
   */
  lemma {:induction false} CallbacksStopAtConsume(responses: seq<Propagation>, k: nat, i: nat)
    requires k < i <= |responses|
    requires responses[k].Consume? && responses[k].callback.Some?
    requires forall j :: k < j < i ==> !(responses[j].Consume? && responses[j].callback.Some?)
    ensures OfferFrom(responses, i).0 == CallbacksIn(responses, k, i)
  {
    if i - 1 > k {
      CallbacksStopAtConsume(responses, k, i - 1);
    } else {
      assert CallbacksIn(responses, k, k) == [];
    }
  }

  /** `Components`: the stack of components (the last pushed on top) and the area they share. */
  class Components<C> {
    var components: seq<C>
    var area: Area

    /** `Components::new`: an empty stack over the given area. */
    constructor(area: Area)
      ensures components == [] && this.area == area
    {
      components := [];
      this.area := area;
    }

    /** `resize`: only the area changes. */
    method Resize(area: Area)
      modifies this
      ensures this.area == area && components == old(components)
    {
      this.area := area;
    }

    /** `push`: the component goes on top. */
    method Push(component: C)
      modifies this
      ensures components == old(components) + [component] && area == old(area)
    {
      components := components + [component];
    }

    /**
     * `cursor`: ask the components from the top down where the caret goes
     * (their answers are `answers`, indexed like the stack); the first that
     * names a position wins.
     */
    method Cursor(answers: seq<Option<Position>>) returns (r: Option<Position>)
      requires |answers| == |components|
      ensures r.Some? <==> exists j :: 0 <= j < |answers| && answers[j].Some?
      ensures r.Some? ==> exists j :: 0 <= j < |answers| && answers[j] == r
                                  && (forall k :: j < k < |answers| ==> answers[k].None?)
    {
      var i := |answers|;
      while i > 0
        invariant 0 <= i <= |answers|
        invariant forall k :: i <= k < |answers| ==> answers[k].None?
      {
        i := i - 1;
        if answers[i].Some? {
          return answers[i];
        }
      }
      return None;
    }

    /**
     * `handle_events`: offer the event from the top down, the answers being
     * `responses` (indexed like the stack); collect callbacks, stopping at
     * the first Consume that carries one, then run the collected callbacks
     * in order. Each Esc callback of the prompt sets the editor back to
     * Normal mode and pops the top component (popping an empty stack does
     * nothing). The result says whether the event was consumed.
     *
     * Each component's own handling of the event happens inside this loop
     * in the program and may change the editor (the editor view switches
     * mode or sets the quit flag). Here those effects come first: `ed` on
     * entry is the editor after every component has answered, and the
     * components' effects are stated by `EditorView.HandleEvents` and
     * `Prompt.CommandPrompt.HandleEvents`.
     */
    method HandleEvents(responses: seq<Propagation>, ed: Editor) returns (consumed: bool)
      requires |responses| == |components|
      modifies this, ed
      ensures var offered := OfferFrom(responses, |responses|);
        consumed == offered.1
        && ed.mode == (if offered.0 == [] then old(ed.mode) else Normal)
        && |old(components)| >= |components|
        && |components| == |old(components)| - Min(|offered.0|, |old(components)|)
        && components == old(components)[..|components|]
      ensures area == old(area) && ed.shouldQuit == old(ed.shouldQuit)
    {
      var callbacks: seq<Callback> := [];
      var stopPropagation := false;
      var i := |responses|;
      assert callbacks + OfferFrom(responses, i).0 == OfferFrom(responses, i).0;
      while i > 0
        invariant 0 <= i <= |responses|
        invariant OfferFrom(responses, |responses|).0 == callbacks + OfferFrom(responses, i).0
        invariant OfferFrom(responses, |responses|).1 == (stopPropagation || OfferFrom(responses, i).1)
      {
        match responses[i - 1] {
          case Ignore(Some(cb)) =>
            assert callbacks + OfferFrom(responses, i).0 == (callbacks + [cb]) + OfferFrom(responses, i - 1).0;
            callbacks := callbacks + [cb];
          case Consume(Some(cb)) =>
            callbacks := callbacks + [cb];
            stopPropagation := true;
            break;
          case Ignore(None) =>
          case Consume(None) =>
            stopPropagation := true;
        }
        i := i - 1;
      }
      assert callbacks == OfferFrom(responses, |responses|).0 by {
        if i == 0 {
          assert callbacks + OfferFrom(responses, i).0 == callbacks;
        }
      }

      var j := 0;
      while j < |callbacks|
        invariant 0 <= j <= |callbacks|
        invariant ed.mode == (if j == 0 then old(ed.mode) else Normal)
        invariant |components| == |old(components)| - Min(j, |old(components)|)
        invariant components == old(components)[..|components|]
        invariant area == old(area) && ed.shouldQuit == old(ed.shouldQuit)
      {
        match callbacks[j] {
          case ExitPrompt =>
            ed.mode := Normal;
            if |components| > 0 {
              components := components[..|components| - 1];
            }
        }
        j := j + 1;
      }
      return stopPropagation;
    }
  }
}

=== FILE: editor.dfy ===
/**
 * The editor state (core/src/editor.rs): the current mode, the buffer and
 * window registries and the quit flag, with `open` and the caret position
 * the terminal is told about.
 */
module EditorCore {
  import opened Wrappers
  import opened Layout
  import opened Modes
  import opened Text
  import opened Lines
  import opened Rope
  import opened Motion
  import opened BufferStore
  import opened WindowStore

  /** What reading a file gave: its text, or the I/O error message. */
  datatype FileRead = Read(content: Rope) | ReadError(message: string)

  /**
   * Where the caret appears on screen for a cursor starting at s with the
   * given scroll offsets: its line and column less the offsets. The unsigned
   * subtractions abort when an offset exceeds its coordinate.
   */
  function CaretAt(t: seq<char>, s: nat, offset: Offset): (r: Outcome<Position>)
    requires s <= |t|
    ensures r.Done? <==> offset.vertical <= CharToLine(t, s) && offset.horizontal <= Column(t, s)
    ensures r.Aborted? ==> r.reason == Underflow
    ensures r.Done? ==> r.value.y + offset.vertical == CharToLine(t, s) && r.value.x + offset.horizontal == Column(t, s)
  {
    var y := CharToLine(t, s);
    var x := Column(t, s);
    if x < offset.horizontal || y < offset.vertical then Aborted(Underflow)
    else Done(Position(x - offset.horizontal, y - offset.vertical))
  }

  /** A cursor's column never exceeds the width of its line. */
  lemma ColumnWithinLine(t: seq<char>, s: nat)
    requires s <= |t|
    ensures Column(t, s) <= Width(Line(t, CharToLine(t, s)))
  {
    var y := CharToLine(t, s);
    LineOfIndex(t, s);
    var a, e := LineToChar(t, y), LineToChar(t, y + 1);
    assert t[a..e] == t[a..s] + t[s..e];
    WidthAppend(t[a..s], t[s..e]);
  }

  /**
   * After the scroll rule has run with margins smaller than both view
   * dimensions, the caret is on screen: no subtraction underflows, the row
   * is inside the text rows and the column at most one past the last text
   * column.
   */
  lemma CaretVisibleAfterScroll(t: seq<char>, s: nat, prev: Offset, area: Area, scrolloff: nat)
    requires s <= |t|
    requires scrolloff < SatSub(area.height, 1) && scrolloff < SatSub(area.width, 1)
    ensures var r := CaretAt(t, s, ViewOffset(prev, area, t, s, scrolloff));
      r.Done? && r.value.y < SatSub(area.height, 1) && r.value.x <= SatSub(area.width, 1)
  {
    var y := CharToLine(t, s);
    ScrollKeepsInView(prev.vertical, y, LenLines(t), SatSub(area.height, 1), scrolloff);
    ColumnWithinLine(t, s);
    ScrollKeepsInView(prev.horizontal, Column(t, s), Width(Line(t, y)), SatSub(area.width, 1), scrolloff);
  }

  class Editor {
    var mode: Mode
    const buffers: Buffers
    const windows: Windows
    var shouldQuit: bool

    /** Both registries are consistent and every window shows a registered buffer. */
    ghost predicate Valid()
      reads this, buffers, windows
    {
      buffers.Valid() && windows.Valid()
      && forall i :: 0 <= i < |windows.nodes| ==> windows.nodes[i].bufferId < |buffers.buffers|
    }

    /** The focused window (`get_focused().unwrap()`). */
    function FocusedWindow(): Window
      reads this, windows
      requires windows.Valid() && windows.focusedNode.Some?
    {
      windows.nodes[windows.focusedNode.value]
    }

    /** The focused window's buffer (`get_mut(buffer_id).unwrap()`). */
    function FocusedBuffer(): Buffer
      reads this, buffers, windows
      requires Valid() && windows.focusedNode.Some?
    {
      buffers.buffers[FocusedWindow().bufferId]
    }

    /**
     * The state the key handlers and movements need: something is focused,
     * its buffer holds a cursor for it, and that cursor starts inside the text.
     */
    ghost predicate Ready()
      reads this, buffers, windows, buffers.buffers
    {
      Valid() && windows.focusedNode.Some?
      && var b := FocusedBuffer();
      FocusedWindow().id in b.cursors && WellFormed(b.content)
      && b.cursors[FocusedWindow().id].start <= |Contents(b.content)|
    }

    /** The text of the focused buffer. */
    ghost function FocusedText(): seq<char>
      reads this, buffers, windows, buffers.buffers
      requires Ready()
    {
      Contents(FocusedBuffer().content)
    }

    /** Where the focused window's cursor starts. */
    ghost function FocusedStart(): (s: nat)
      reads this, buffers, windows, buffers.buffers
      requires Ready()
      ensures s <= |FocusedText()|
    {
      FocusedBuffer().cursors[FocusedWindow().id].start
    }

    /** `Editor::new`: Normal mode, not quitting, no buffers and no windows. */
    constructor(area: Area)
      ensures Valid() && fresh(buffers) && fresh(windows)
      ensures mode == Normal && !shouldQuit
      ensures buffers.buffers == [] && windows.nodes == [] && windows.focusedNode == None && windows.area == area
    {
      mode := Normal;
      windows := new Windows(area);
      buffers := new Buffers();
      shouldQuit := false;
    }

    /**
     * `open`: a path some buffer already has gets a new focused window on
     * that buffer and no file read; a new path is read (the read is the
     * `file` parameter), and on success gets a new buffer and a new focused
     * window; a failed read returns its error before anything changes. The
     * windows that were open keep their offsets and their `focused` flags,
     * so a window focused before stays flagged after the new one is focused.
     */
    method Open(path: string, file: FileRead, defaultCursor: Cursor) returns (r: Result<nat, string>)
      requires Valid()
      modifies buffers, windows, windows.nodes
      ensures Valid()
      ensures (exists j :: 0 <= j < |old(buffers.buffers)| && old(buffers.buffers)[j].filePath == Some(path)) ==>
        buffers.buffers == old(buffers.buffers)
        && r.Ok? && r.value < |buffers.buffers| && buffers.buffers[r.value].filePath == Some(path)
        && (forall j :: 0 <= j < r.value ==> buffers.buffers[j].filePath != Some(path))
        && |windows.nodes| == |old(windows.nodes)| + 1 && windows.nodes[..|old(windows.nodes)|] == old(windows.nodes)
        && windows.nodes[|old(windows.nodes)|].bufferId == r.value
        && windows.focusedNode == Some(|old(windows.nodes)|) && windows.nodes[|old(windows.nodes)|].focused
        && windows.nodes[|old(windows.nodes)|].offset == Offset(0, 0)
      ensures (forall j :: 0 <= j < |old(buffers.buffers)| ==> old(buffers.buffers)[j].filePath != Some(path)) && file.Read? ==>
        r == Ok(|old(buffers.buffers)|)
        && |buffers.buffers| == |old(buffers.buffers)| + 1 && buffers.buffers[..r.value] == old(buffers.buffers)
        && buffers.buffers[r.value].filePath == Some(path) && buffers.buffers[r.value].content == file.content
        && buffers.buffers[r.value].cursors == map[]
        && |windows.nodes| == |old(windows.nodes)| + 1 && windows.nodes[..|old(windows.nodes)|] == old(windows.nodes)
        && windows.nodes[|old(windows.nodes)|].bufferId == r.value
        && windows.focusedNode == Some(|old(windows.nodes)|) && windows.nodes[|old(windows.nodes)|].focused
        && windows.nodes[|old(windows.nodes)|].offset == Offset(0, 0)
      ensures (forall j :: 0 <= j < |old(buffers.buffers)| ==> old(buffers.buffers)[j].filePath != Some(path)) && file.ReadError? ==>
        r == Err(file.message)
        && buffers.buffers == old(buffers.buffers) && buffers.nextBufferId == old(buffers.nextBufferId)
        && windows.nodes == old(windows.nodes) && windows.focusedNode == old(windows.focusedNode)
      ensures forall j :: 0 <= j < |old(windows.nodes)| ==> windows.nodes[j].offset == old(windows.nodes[j].offset)
      ensures forall j :: 0 <= j < |old(windows.nodes)| ==> windows.nodes[j].focused == old(windows.nodes[j].focused)
    {
      var found := buffers.FindByFilePath(path);
      if found.Some? {
        var windowId := windows.Add(found.value, defaultCursor);
        windows.Focus(windowId);
        return Ok(found.value);
      }
      if file.ReadError? {
        return Err(file.message);
      }
      var bufferId := buffers.Add(file.content, Some(path));
      var windowId := windows.Add(bufferId, defaultCursor);
      windows.Focus(windowId);
      return Ok(bufferId);
    }

    /**
     * `Editor::cursor`: the caret position of the focused window's cursor,
     * aborting when a scroll offset exceeds the cursor's line or column.
     */
    function CursorPosition(): (r: Outcome<Position>)
      reads this, buffers, windows, buffers.buffers, windows.nodes
      requires Ready()
      ensures r == CaretAt(FocusedText(), FocusedStart(), FocusedWindow().offset)
    {
      var win := windows.GetFocused().value;
      var found := buffers.buffers[win.bufferId];
      var cursor := found.GetCursor(win.id);
      CaretAt(Contents(found.content), cursor.start, win.offset)
    }
  }
}

=== FILE: editor_view.dfy ===
/**
 * The editor component's key handling (`EditorView::handle_key_events` and
 * `handle_events` in core/src/editor.rs): a table from mode and key to an
 * action, the action run on the focused window's buffer, then the scroll
 * rule with a margin of 12.
 */
module EditorView {
  import opened Wrappers
  import opened Layout
  import opened Modes
  import opened Text
  import opened Lines
  import opened Rope
  import opened Motion
  import opened BufferStore
  import opened WindowStore
  import opened EditorCore
  import opened Movements
  import opened Components

  /** What a key does in a mode. */
  datatype Action =
    | QuitEditor | StepRight | StepLeft | StepDown | StepUp | EnterInsert
    | LineHome | LineEnd | TypeChar(c: char) | BreakLine | DeleteBack | EnterNormal
    | Unsupported | NoAction

  /** The key table of `handle_key_events`. */
  function Dispatch(mode: Mode, key: Key): Action {
    match mode
    case Normal => (
      match key
      case Char('q') => QuitEditor
      case Char('l') => StepRight
      case Char('h') => StepLeft
      case Char('j') => StepDown
      case Char('k') => StepUp
      case Char('i') => EnterInsert
      case Char('0') => LineHome
      case Char('$') => LineEnd
      case Esc => Unsupported
      case _ => NoAction)
    case Insert => (
      match key
      case Char(c) => TypeChar(c)
      case Enter => BreakLine
      case Backspace => DeleteBack
      case Esc => EnterNormal
      case _ => NoAction)
    case Visual => Unsupported
    case Search => Unsupported
  }

  /** The mode after an action. */
  function NextMode(mode: Mode, a: Action): Mode {
    match a
    case EnterInsert => Insert
    case EnterNormal => Normal
    case _ => mode
  }

  /** What an action does to the focused text and the focused window's cursor. */
  datatype Effect = Unchanged | Edited(text: seq<char>, cursor: Cursor) | Fails

  /**
   * The effect of an action on text t with the cursor starting at s, as the
   * movement functions define it: a new text and a new cursor entry, no
   * change, or an abort (an index past the end of the text).
   */
  function KeyEffect(a: Action, t: seq<char>, s: nat): (e: Effect)
    requires s <= |t|
  {
    match a
    case StepRight => Edited(t, Span(t, NextBoundary(t, s)))
    case StepLeft => Edited(t, Span(t, PrevBoundary(t, s)))
    case StepDown =>
      var v := VerticalTarget(t, s, DownLine(t, s));
      if v <= |t| then Edited(t, Span(t, v)) else Fails
    case StepUp =>
      var v := VerticalTarget(t, s, UpLine(t, s));
      if v <= |t| then Edited(t, Span(t, v)) else Fails
    case LineHome => Edited(t, Span(t, LineStart(t, s)))
    case LineEnd =>
      if Width(Line(t, CharToLine(t, s))) == 0 then Unchanged
      else Edited(t, Span(t, LineEndTarget(t, s)))
    case TypeChar(c) =>
      var u := t[..s] + [c] + t[s..];
      Edited(u, Span(u, NextBoundary(u, s)))
    case BreakLine =>
      var u := t[..s] + ['\n'] + t[s..];
      var v := VerticalTarget(u, s, DownLine(u, s));
      if v <= |u| then Edited(u, Span(u, LineStart(u, v))) else Fails
    case DeleteBack =>
      var p := PrevBoundary(t, s);
      if p < |t| then Edited(t[..p] + t[p + 1..], Span(t, p)) else Fails
    case Unsupported => Fails
    case _ => Unchanged
  }

  /**
   * Between the state before and the state now, action a has had its
   * effect: it failed for the reason it must, or the mode, the quit flag,
   * the focused text and the focused window's cursor are as KeyEffect and
   * NextMode say.
   */
  twostate predicate Performed(ed: Editor, a: Action, new failure: Option<Abort>)
    requires old(ed.Ready())
    reads ed, ed.buffers, ed.windows, ed.buffers.buffers
  {
    var e := KeyEffect(a, old(ed.FocusedText()), old(ed.FocusedStart()));
    (failure.Some? <==> e.Fails?)
    && (failure.Some? ==> failure.value == if a == Unsupported then NotImplemented else RopeIndexOutOfRange)
    && (failure.None? ==>
          ed.Ready()
          && old(ed.FocusedBuffer()) == ed.FocusedBuffer()
          && ed.mode == NextMode(old(ed.mode), a)
          && ed.shouldQuit == (old(ed.shouldQuit) || a == QuitEditor)
          && (e.Unchanged? ==> ed.FocusedBuffer().content == old(ed.FocusedBuffer().content)
                               && ed.FocusedBuffer().cursors == old(ed.FocusedBuffer().cursors))
          && (e.Edited? ==> ed.FocusedText() == e.text
                            && ed.FocusedBuffer().cursors == old(ed.FocusedBuffer().cursors)[ed.FocusedWindow().id := e.cursor]))
  }

  /** The arms of the `match` in `handle_key_events` that change only the editor's own fields. */
  method PerformOnEditor(ed: Editor, a: Action) returns (failure: Option<Abort>)
    requires ed.Ready()
    requires a.QuitEditor? || a.EnterInsert? || a.EnterNormal? || a.Unsupported? || a.NoAction?
    modifies ed
    ensures Performed(ed, a, failure)
  {
    failure := None;
    match a {
      case QuitEditor => ed.shouldQuit := true;
      case EnterInsert => ed.mode := Insert;
      case EnterNormal => ed.mode := Normal;
      case Unsupported => failure := Some(NotImplemented);
      case NoAction =>
    }
  }

  /** The arms that move the cursor and cannot fail. */
  method PerformMove(ed: Editor, a: Action)
    requires ed.Ready()
    requires a.StepRight? || a.StepLeft? || a.LineHome? || a.LineEnd? || a.TypeChar?
    modifies ed.FocusedBuffer()
    ensures Performed(ed, a, None)
  {
    match a {
      case StepRight => MoveRight(ed);
      case StepLeft => MoveLeft(ed);
      case LineHome => GotoStartOfLine(ed);
      case LineEnd => GotoEndOfLine(ed);
      case TypeChar(c) => Movements.InsertChar(ed, c);
    }
  }

  /** The arms that can hand the rope an index past the end of the text. */
  method PerformFallible(ed: Editor, a: Action) returns (failure: Option<Abort>)
    requires ed.Ready()
    requires a.StepDown? || a.StepUp? || a.BreakLine? || a.DeleteBack?
    modifies ed.FocusedBuffer()
    ensures Performed(ed, a, failure)
  {
    var ok;
    match a {
      case StepDown => ok := MoveDown(ed);
      case StepUp => ok := MoveUp(ed);
      case BreakLine => ok := InsertNewLine(ed);
      case DeleteBack => ok := DeleteChar(ed);
    }
    failure := if ok then None else Some(RopeIndexOutOfRange);
  }

  /** The `match` in `handle_key_events`: run one action on the editor, returning the reason when it aborts. */
  method Perform(ed: Editor, a: Action) returns (failure: Option<Abort>)
    requires ed.Ready()
    modifies ed, ed.FocusedBuffer()
    ensures Performed(ed, a, failure)
  {
    if a.QuitEditor? || a.EnterInsert? || a.EnterNormal? || a.Unsupported? || a.NoAction? {
      failure := PerformOnEditor(ed, a);
    } else if a.StepDown? || a.StepUp? || a.BreakLine? || a.DeleteBack? {
      failure := PerformFallible(ed, a);
    } else {
      PerformMove(ed, a);
      failure := None;
    }
  }

  /**
   * Between the state before and the state now, key has been handled in the
   * editor view: the dispatched action failed for the reason it must and the
   * key aborted, or the action had its effect (KeyEffect, NextMode), the
   * focused window scrolled with a margin of 12, and the key was consumed.
   */
  twostate predicate KeyHandled(ed: Editor, key: Key, new out: Outcome<Propagation>)
    requires old(ed.Ready())
    reads ed, ed.buffers, ed.windows, ed.buffers.buffers, ed.windows.nodes
  {
    var a := Dispatch(old(ed.mode), key);
    var e := KeyEffect(a, old(ed.FocusedText()), old(ed.FocusedStart()));
    (out.Aborted? <==> e.Fails?)
    && (out.Aborted? ==> out.reason == if a == Unsupported then NotImplemented else RopeIndexOutOfRange)
    && (out.Done? ==>
          out.value == Consume(None) && ed.Ready()
          && ed.mode == NextMode(old(ed.mode), a)
          && ed.shouldQuit == (old(ed.shouldQuit) || a == QuitEditor)
          && (e.Unchanged? ==> ed.FocusedBuffer().content == old(ed.FocusedBuffer().content)
                               && ed.FocusedBuffer().cursors == old(ed.FocusedBuffer().cursors))
          && (e.Edited? ==> ed.FocusedText() == e.text
                            && ed.FocusedBuffer().cursors == old(ed.FocusedBuffer().cursors)[ed.FocusedWindow().id := e.cursor])
          && ed.FocusedWindow().offset ==
               ViewOffset(old(ed.FocusedWindow().offset), ed.FocusedWindow().area, ed.FocusedText(), ed.FocusedStart(), 12))
  }

  /**
   * `handle_key_events`: run the key's action on the focused buffer, then
   * keep the cursor in view with a margin of 12, and consume the key.
   * Normal-mode Esc, Visual and Search mode abort as not implemented; a
   * movement that hands the rope an index past the end aborts too.
   */
  method HandleKeyEvents(ed: Editor, key: Key) returns (out: Outcome<Propagation>)
    requires ed.Ready()
    modifies ed, ed.FocusedBuffer(), ed.FocusedWindow()
    ensures KeyHandled(ed, key, out)
  {
    var failure := Perform(ed, Dispatch(ed.mode, key));
    if failure.Some? {
      return Aborted(failure.value);
    }
    var window := ed.windows.GetFocused().value;
    var found := ed.buffers.Get(window.bufferId);
    var buf := found.value;
    window.PositionCursorInView(buf, 12);
    return Done(Consume(None));
  }

  /**
   * `handle_events`: key presses go to HandleKeyEvents; any other event is
   * ignored and leaves the editor as it was.
   */
  method HandleEvents(ed: Editor, event: Event) returns (out: Outcome<Propagation>)
    requires ed.Ready()
    modifies ed, ed.FocusedBuffer(), ed.FocusedWindow()
    ensures event.KeyPress? ==> KeyHandled(ed, event.key, out)
    ensures event.OtherEvent? ==>
      out == Done(Ignore(None)) && ed.Ready()
      && ed.mode == old(ed.mode) && ed.shouldQuit == old(ed.shouldQuit)
      && ed.FocusedBuffer() == old(ed.FocusedBuffer()) && ed.FocusedWindow() == old(ed.FocusedWindow())
      && ed.FocusedBuffer().content == old(ed.FocusedBuffer().content)
      && ed.FocusedBuffer().cursors == old(ed.FocusedBuffer().cursors)
      && ed.FocusedWindow().offset == old(ed.FocusedWindow().offset)
  {
    match event {
      case KeyPress(key) =>
        out := HandleKeyEvents(ed, key);
      case OtherEvent =>
        out := Done(Ignore(None));
    }
  }

  // ---------------------------------------------------------------------------
  // Properties of the key table
  // ---------------------------------------------------------------------------

  /** Exactly Normal-mode Esc, and every key in Visual or Search mode, hit an unwritten branch. */
  lemma UnsupportedExactly(mode: Mode, key: Key)
    ensures Dispatch(mode, key) == Unsupported <==> (mode == Normal && key == Esc) || mode == Visual || mode == Search
  {
  }

  /**
   * Keys with no entry (':' among them) change neither the mode nor the quit
   * flag, the text or the cursor.
   */
  lemma UnmappedKeysDoNothing(t: seq<char>, s: nat, key: Key)
    requires s <= |t|
    requires key.OtherKey? || (key.Char? && key.c !in "qlhjki0$")
    ensures Dispatch(Normal, key) == NoAction && NextMode(Normal, NoAction) == Normal
    ensures KeyEffect(NoAction, t, s) == Unchanged
  {
  }

  /**
   * In Insert mode, typing a char that forms a cluster of its own and then
   * Backspace gives back the text as it was, with the cursor on the old
   * start.
   */
  lemma {:induction false} TypeThenDelete(t: seq<char>, s: nat, c: char)
    requires s <= |t|
    requires var u := t[..s] + [c] + t[s..]; IsBoundary(u, s) && IsBoundary(u, s + 1)
    ensures var typed := KeyEffect(Dispatch(Insert, Char(c)), t, s);
      typed.Edited? && typed.cursor.start <= |typed.text|
      && var deleted := KeyEffect(Dispatch(Insert, Backspace), typed.text, typed.cursor.start);
      deleted.Edited? && deleted.text == t && deleted.cursor.start == s
  {
    var u := t[..s] + [c] + t[s..];
    TypeThenBackspace(t, s, c);
    assert NextBoundary(u, s) == s + 1;
    assert PrevBoundary(u, s + 1) == s;
  }

  /**
   * In Insert mode, Enter followed by a line without wide characters leaves
   * the cursor at the start of the new line, one past the inserted '\n'.
   */
  lemma EnterStartsNewLine(t: seq<char>, s: nat)
    requires s <= |t|
    requires var u := t[..s] + ['\n'] + t[s..];
      CharToLine(u, s) + 1 < LenLines(u) && Narrow(Line(u, CharToLine(u, s) + 1))
    ensures var e := KeyEffect(Dispatch(Insert, Enter), t, s);
      e.Edited? && e.cursor.start == s + 1 && e.text == t[..s] + ['\n'] + t[s..]
  {
    NewLineLandsOnNextLineStart(t, s);
  }
}

=== FILE: layout.dfy ===
/** Screen geometry shared by windows, components and the prompt. */
module Layout {
  /** A terminal rectangle (ratatui's `Rect`): origin and size in cells. */
  datatype Area = Area(x: nat, y: nat, width: nat, height: nat)

  /** A window's scroll offsets, in lines and display cells. */
  datatype Offset = Offset(vertical: nat, horizontal: nat)

  /** A caret position on the screen. */
  datatype Position = Position(x: nat, y: nat)

  /** `usize::saturating_sub`: a - b, or 0 when b exceeds a. */
  function SatSub(a: nat, b: nat): nat {
    if a >= b then a - b else 0
  }
}

=== FILE: lines.dfy ===
/**
 * Line indexing of a text, as the rope library provides it to the editor
 * (`len_lines`, `char_to_line`, `line_to_char`, `line`). Only '\n' ends a
 * line in this model.
 */
module Lines {
  import opened Text

  /** The number of '\n' characters in s. */
  function Newlines(s: seq<char>): nat {
    if s == [] then 0 else Newlines(s[..|s| - 1]) + (if s[|s| - 1] == '\n' then 1 else 0)
  }

  /** Line breaks of a concatenation add up. */
  lemma {:induction false} NewlinesAppend(a: seq<char>, b: seq<char>)
    ensures Newlines(a + b) == Newlines(a) + Newlines(b)
    decreases |b|
  {
    if b == [] {
      assert a + b == a;
    } else {
      assert (a + b)[..|a + b| - 1] == a + b[..|b| - 1];
      NewlinesAppend(a, b[..|b| - 1]);
    }
  }

  /** A text without '\n' has no line breaks. */
  lemma {:induction false} NoNewlines(s: seq<char>)
    requires forall i :: 0 <= i < |s| ==> s[i] != '\n'
    ensures Newlines(s) == 0
    decreases |s|
  {
    if s != [] {
      NoNewlines(s[..|s| - 1]);
    }
  }

  /** `len_lines`: one more than the number of line breaks; an empty text has one line. */
  function LenLines(t: seq<char>): (n: nat)
    ensures n >= 1
  {
    Newlines(t) + 1
  }

  /** `char_to_line`: the index of the line holding char index i (i == |t| is on the last line). */
  function CharToLine(t: seq<char>, i: nat): (y: nat)
    requires i <= |t|
    ensures y < LenLines(t)
  {
    CharToLineBound(t, i);
    Newlines(t[..i])
  }

  lemma {:induction false} CharToLineBound(t: seq<char>, i: nat)
    requires i <= |t|
    ensures Newlines(t[..i]) <= Newlines(t)
    decreases |t| - i
  {
    if i < |t| {
      CharToLineStep(t, i);
      CharToLineBound(t, i + 1);
    } else {
      assert t[..i] == t;
    }
  }

  /** Moving one char forward raises the line index exactly when that char is '\n'. */
  lemma CharToLineStep(t: seq<char>, i: nat)
    requires i < |t|
    ensures Newlines(t[..i + 1]) == Newlines(t[..i]) + (if t[i] == '\n' then 1 else 0)
  {
    assert t[..i + 1][..i] == t[..i];
  }

  /** char_to_line never decreases along the text. */
  lemma {:induction false} CharToLineMonotone(t: seq<char>, i: nat, j: nat)
    requires i <= j <= |t|
    ensures CharToLine(t, i) <= CharToLine(t, j)
    decreases j - i
  {
    if i < j {
      CharToLineStep(t, i);
      CharToLineMonotone(t, i + 1, j);
    }
  }

  /** The first index at or after i whose line index reaches k. */
  function FirstAtLine(t: seq<char>, k: nat, i: nat): (r: nat)
    requires i <= |t| && k < LenLines(t)
    ensures i <= r <= |t| && CharToLine(t, r) >= k
    ensures forall j :: i <= j < r ==> CharToLine(t, j) < k
    decreases |t| - i
  {
    if CharToLine(t, i) >= k then i
    else
      assert i < |t| by { assert t[..|t|] == t; }
      FirstAtLine(t, k, i + 1)
  }

  /**
   * `line_to_char`: the char index where line k starts (the first index on
   * line k); k == LenLines(t) is allowed and gives |t|.
   */
  function LineToChar(t: seq<char>, k: nat): (r: nat)
    requires k <= LenLines(t)
    ensures r <= |t|
    ensures k < LenLines(t) ==> CharToLine(t, r) == k
    ensures k < LenLines(t) ==> forall j :: 0 <= j < r ==> CharToLine(t, j) < k
    ensures k == LenLines(t) ==> r == |t|
  {
    if k == LenLines(t) then |t|
    else
      var r := FirstAtLine(t, k, 0);
      FirstAtLineExact(t, k, r);
      r
  }

  /** The first index whose line reaches k is exactly on line k: lines advance one at a time. */
  lemma FirstAtLineExact(t: seq<char>, k: nat, r: nat)
    requires r <= |t| && CharToLine(t, r) >= k
    requires r > 0 ==> CharToLine(t, r - 1) < k
    ensures CharToLine(t, r) == k
  {
    if r > 0 {
      CharToLineStep(t, r - 1);
    }
  }

  /** `line(k)`: the chars of line k, including its terminating '\n' if it has one. */
  function Line(t: seq<char>, k: nat): (l: seq<char>)
    requires k < LenLines(t)
    ensures |l| == LineToChar(t, k + 1) - LineToChar(t, k)
  {
    LineToCharMonotone(t, k, k + 1);
    t[LineToChar(t, k)..LineToChar(t, k + 1)]
  }

  /** Line starts come in order. */
  lemma LineToCharMonotone(t: seq<char>, k: nat, m: nat)
    requires k <= m <= LenLines(t)
    ensures LineToChar(t, k) <= LineToChar(t, m)
  {
    if k < m && m < LenLines(t) {
      var a, b := LineToChar(t, k), LineToChar(t, m);
      assert CharToLine(t, b) >= k;
    }
  }

  /** Every index lies between the start of its line and the start of the next one. */
  lemma LineOfIndex(t: seq<char>, i: nat)
    requires i <= |t|
    ensures var y := CharToLine(t, i);
      LineToChar(t, y) <= i <= LineToChar(t, y + 1)
      && (i < LineToChar(t, y + 1) || y + 1 == LenLines(t))
  {
    var y := CharToLine(t, i);
    var s := LineToChar(t, y);
    assert s <= i;
    if y + 1 < LenLines(t) {
      var e := LineToChar(t, y + 1);
      if e <= i {
        CharToLineMonotone(t, e, i);
      }
    }
  }

  /** Conversely, an index between the starts of lines k and k + 1 is on line k. */
  lemma IndexOnLine(t: seq<char>, k: nat, i: nat)
    requires k < LenLines(t) && i <= |t|
    requires LineToChar(t, k) <= i
    requires i < LineToChar(t, k + 1) || k + 1 == LenLines(t)
    ensures CharToLine(t, i) == k
  {
    CharToLineMonotone(t, LineToChar(t, k), i);
  }

  /** A line start lies on its own line, so going to the start of a line twice is going there once. */
  lemma StartOnOwnLine(t: seq<char>, k: nat)
    requires k < LenLines(t)
    ensures CharToLine(t, LineToChar(t, k)) == k
  {
  }

  /** Every line but the last ends with '\n', and no line holds a '\n' before its end. */
  lemma LineEnds(t: seq<char>, k: nat)
    requires k < LenLines(t)
    ensures k + 1 < LenLines(t) ==> 0 < LineToChar(t, k + 1) && t[LineToChar(t, k + 1) - 1] == '\n'
    ensures forall j :: LineToChar(t, k) <= j < LineToChar(t, k + 1) - 1 ==> t[j] != '\n'
    ensures k + 1 == LenLines(t) ==> forall j :: LineToChar(t, k) <= j < |t| ==> t[j] != '\n'
  {
    var s, e := LineToChar(t, k), LineToChar(t, k + 1);
    if k + 1 < LenLines(t) {
      assert CharToLine(t, 0) == 0 by { assert t[..0] == []; }
      assert e > 0;
      assert CharToLine(t, e - 1) < k + 1;
      assert CharToLine(t, e) == k + 1;
      CharToLineStep(t, e - 1);
      assert t[..e - 1 + 1] == t[..e];
    }
    forall j | s <= j < e - 1 || (k + 1 == LenLines(t) && s <= j < |t|)
      ensures t[j] != '\n'
    {
      CharToLineMonotone(t, s, j);
      CharToLineStep(t, j);
      if k + 1 < LenLines(t) {
        assert CharToLine(t, j + 1) < k + 1;
      } else {
        CharToLineMonotone(t, j + 1, |t|);
        assert t[..|t|] == t;
      }
    }
  }
}

=== FILE: modes.dfy ===
/** The editing modes of the editor and the names the status line shows for them (core/src/mode.rs). */
module Modes {
  datatype Mode = Normal | Insert | Visual | Search

  /** `Display for Mode`: the status-line label of each mode. */
  function Display(m: Mode): (s: string)
    ensures |s| == 6
    ensures m == Normal ==> s == "NORMAL"
    ensures m == Insert ==> s == "INSERT"
    ensures m == Visual ==> s == "VISUAL"
    ensures m == Search ==> s == "SEARCH"
  {
    match m
    case Normal => "NORMAL"
    case Insert => "INSERT"
    case Visual => "VISUAL"
    case Search => "SEARCH"
  }

  /** Different modes never show the same label: their first letters already differ. */
  lemma DisplayInjective(m1: Mode, m2: Mode)
    requires m1 != m2
    ensures Display(m1) != Display(m2)
  {
    assert Display(m1)[0] != Display(m2)[0];
  }
}

=== FILE: motion.dfy ===
/**
 * Where the cursor movements and edits of core/src/movements.rs put the
 * cursor, stated on the flat text. Module Movements applies these to the
 * focused buffer; the lemmas here say what the placements mean.
 */
module Motion {
  import opened Unicode
  import opened Text
  import opened Lines

  /** A cursor: the char range start..end it covers. */
  datatype Cursor = Cursor(start: nat, end: nat)

  /**
   * The cursor every movement writes: from s to the next grapheme boundary,
   * so it covers one cluster, or is empty exactly at the end of the text.
   */
  function Span(t: seq<char>, s: nat): (c: Cursor)
    requires s <= |t|
    ensures c.start == s && s <= c.end <= |t| && IsBoundary(t, c.end)
    ensures c.end == s <==> s == |t|
  {
    Cursor(s, NextBoundary(t, s))
  }

  /** The start of the line holding s; it lies on that same line, so taking it twice changes nothing. */
  function LineStart(t: seq<char>, s: nat): (r: nat)
    requires s <= |t|
    ensures r <= s
    ensures CharToLine(t, r) == CharToLine(t, s)
    ensures forall j :: 0 <= j < r ==> CharToLine(t, j) < CharToLine(t, s)
  {
    LineOfIndex(t, s);
    LineToChar(t, CharToLine(t, s))
  }

  /** The column of s: the display width of its line from the line start up to s. */
  function Column(t: seq<char>, s: nat): nat
    requires s <= |t|
  {
    Width(t[LineStart(t, s)..s])
  }

  /** The line `move_up` aims at: one above, saturating at the first line. */
  function UpLine(t: seq<char>, s: nat): (y: nat)
    requires s <= |t|
    ensures y < LenLines(t)
    ensures CharToLine(t, s) > 0 ==> y + 1 == CharToLine(t, s)
    ensures CharToLine(t, s) == 0 ==> y == 0
  {
    if CharToLine(t, s) >= 1 then CharToLine(t, s) - 1 else 0
  }

  /** The line `move_down` aims at: one below, capped at the last line. */
  function DownLine(t: seq<char>, s: nat): (y: nat)
    requires s <= |t|
    ensures y < LenLines(t)
    ensures CharToLine(t, s) + 1 < LenLines(t) ==> y == CharToLine(t, s) + 1
    ensures CharToLine(t, s) + 1 == LenLines(t) ==> y == CharToLine(t, s)
  {
    if CharToLine(t, s) + 1 <= LenLines(t) - 1 then CharToLine(t, s) + 1 else LenLines(t) - 1
  }

  /**
   * The index a vertical move from s to line y aims at: the start of line y
   * plus the smaller of that line's width and the current column. Widths are
   * display cells but are added to a char index, so on lines with wide
   * characters the result can leave line y or even the text.
   */
  function VerticalTarget(t: seq<char>, s: nat, y: nat): nat
    requires s <= |t| && y < LenLines(t)
  {
    LineToChar(t, y) + Min(Width(Line(t, y)), Column(t, s))
  }

  /** The index `goto_end_of_line` aims at: the last boundary before the next line's start. */
  function LineEndTarget(t: seq<char>, s: nat): nat
    requires s <= |t|
  {
    PrevBoundary(t, LineToChar(t, CharToLine(t, s) + 1))
  }

  // ---------------------------------------------------------------------------
  // Lemmas
  // ---------------------------------------------------------------------------

  lemma NarrowPrefix(l: seq<char>, n: nat)
    requires Narrow(l) && n <= |l|
    ensures Narrow(l[..n])
  {
    forall i | 0 <= i < n ensures CharWidth(l[..n][i]) <= 1 {
      assert l[..n][i] == l[i];
    }
  }

  /** A line that ends in '\n' is wider only through its other characters: the '\n' takes no cell. */
  lemma NarrowLineWidth(l: seq<char>)
    requires Narrow(l) && |l| > 0 && l[|l| - 1] == '\n'
    ensures Width(l) <= |l| - 1
  {
    var n := |l| - 1;
    assert l == l[..n] + [l[n]];
    WidthAppend(l[..n], [l[n]]);
    assert Width([l[n]]) == CharWidth('\n') + Width([]);
    NarrowPrefix(l, n);
    NarrowWidth(l[..n]);
  }

  /**
   * On a line without wide characters the vertical move lands inside the
   * target line (before its '\n'), so it stays in the text and on line y.
   */
  lemma VerticalStaysOnNarrowLine(t: seq<char>, s: nat, y: nat)
    requires s <= |t| && y < LenLines(t) && Narrow(Line(t, y))
    ensures VerticalTarget(t, s, y) <= |t|
    ensures CharToLine(t, VerticalTarget(t, s, y)) == y
    ensures y + 1 < LenLines(t) ==> VerticalTarget(t, s, y) < LineToChar(t, y + 1)
  {
    var a, e := LineToChar(t, y), LineToChar(t, y + 1);
    var l := Line(t, y);
    var v := VerticalTarget(t, s, y);
    NarrowWidth(l);
    LineEnds(t, y);
    if y + 1 < LenLines(t) {
      assert l[|l| - 1] == t[e - 1];
      NarrowLineWidth(l);
      assert v < e;
    } else {
      assert v <= e;
    }
    IndexOnLine(t, y, v);
  }

  /** Every char of l other than a line break takes exactly one cell. */
  predicate OneCellEach(l: seq<char>) {
    forall i :: 0 <= i < |l| && l[i] != '\n' ==> CharWidth(l[i]) == 1
  }

  /** A slice of one-cell chars is exactly as wide as it is long. */
  lemma {:induction false} OneCellWidth(l: seq<char>)
    requires forall i :: 0 <= i < |l| ==> CharWidth(l[i]) == 1
    ensures Width(l) == |l|
  {
    if l != [] {
      assert forall i :: 0 <= i < |l[1..]| ==> l[1..][i] == l[i + 1];
      OneCellWidth(l[1..]);
    }
  }

  /** A line whose chars take one cell each, apart from line breaks, has no wide chars. */
  lemma OneCellNarrow(l: seq<char>)
    requires OneCellEach(l)
    ensures Narrow(l)
  {
    forall i | 0 <= i < |l| ensures CharWidth(l[i]) <= 1 {
      if l[i] == '\n' {
        assert IsControl(l[i]);
      }
    }
  }

  /** The first m chars of a narrow line, m at most its width, hold no line break. */
  lemma NoBreakWithinWidth(t: seq<char>, y: nat, m: nat)
    requires y < LenLines(t) && Narrow(Line(t, y)) && m <= Width(Line(t, y))
    ensures m <= |Line(t, y)|
    ensures forall i :: 0 <= i < m ==> Line(t, y)[i] != '\n'
  {
    var a, e := LineToChar(t, y), LineToChar(t, y + 1);
    var l := Line(t, y);
    LineEnds(t, y);
    NarrowWidth(l);
    if y + 1 < LenLines(t) {
      assert l[|l| - 1] == t[e - 1];
      NarrowLineWidth(l);
    }
    forall i | 0 <= i < m ensures l[i] != '\n' {
      assert l[i] == t[a + i];
    }
  }

  /**
   * Column rule: when every char of line y takes one cell, a vertical move
   * to line y lands at display column min(width of line y, current column),
   * so the column is kept when line y is wide enough and the move goes to
   * the end of its text otherwise. The column is worked out afresh from the
   * current start each time.
   */
  lemma VerticalColumn(t: seq<char>, s: nat, y: nat)
    requires s <= |t| && y < LenLines(t) && OneCellEach(Line(t, y))
    ensures VerticalTarget(t, s, y) <= |t|
    ensures Column(t, VerticalTarget(t, s, y)) == Min(Width(Line(t, y)), Column(t, s))
  {
    var a := LineToChar(t, y);
    var l := Line(t, y);
    var m := Min(Width(l), Column(t, s));
    var v := VerticalTarget(t, s, y);
    OneCellNarrow(l);
    VerticalStaysOnNarrowLine(t, s, y);
    assert LineStart(t, v) == a;
    NoBreakWithinWidth(t, y, m);
    var p := l[..m];
    forall i | 0 <= i < m ensures t[a..v][i] == p[i] && p[i] == l[i] {
      assert l[i] == t[a + i];
    }
    assert t[a..v] == p;
    OneCellWidth(p);
  }

  /** The text of the wide-character counterexample: "abcd", then two wide characters, then "xy". */
  function WideExample(): seq<char> {
    "abcd\n\U{4E00}\U{4E00}\nxy"
  }

  lemma WideExampleLines()
    ensures var t := WideExample();
      LenLines(t) == 3 && CharToLine(t, 4) == 0 && CharToLine(t, 9) == 2
      && LineToChar(t, 1) == 5 && LineToChar(t, 2) == 8
  {
    var t := WideExample();
    var abcd, wide, xy := t[..4], t[5..7], t[8..];
    assert abcd == ['a', 'b', 'c', 'd'];
    assert wide == ['\U{4E00}', '\U{4E00}'];
    assert xy == ['x', 'y'];
    NoNewlines(abcd);
    NoNewlines(wide);
    NoNewlines(xy);
    assert CharToLine(t, 4) == 0;
    AfterNewlineIsLineStart(t, 4);
    assert t[..7] == abcd + ['\n'] + wide;
    NewlinesAppend(abcd, ['\n']);
    NewlinesAppend(abcd + ['\n'], wide);
    assert Newlines(['\n']) == 1 by { assert ['\n'][..0] == []; }
    assert CharToLine(t, 7) == 1;
    AfterNewlineIsLineStart(t, 7);
    CharToLineStep(t, 8);
    assert t == t[..8] + xy;
    NewlinesAppend(t[..8], xy);
  }

  lemma WideExampleWidths()
    ensures var t := WideExample(); Width(t[5..8]) == 4 && Width(t[0..4]) == 4
  {
    var t := WideExample();
    var w := t[5..8];
    assert w[1..] == ['\U{4E00}', '\n'] && w[1..][1..] == ['\n'] && w[1..][1..][1..] == [];
    assert Width(w) == 2 + Width(w[1..]);
    var a := t[0..4];
    assert a[1..] == ['b', 'c', 'd'] && a[1..][1..] == ['c', 'd'] && a[1..][1..][1..] == ['d'];
    assert a[1..][1..][1..][1..] == [];
    assert Width(a[1..][1..][1..]) == 1;
    assert Width(a[1..][1..]) == 2;
    assert Width(a[1..]) == 3;
    assert Width(a) == 1 + Width(a[1..]);
  }

  /**
   * Counterexample for wide characters: from the end of "abcd", moving down
   * onto a line of two wide characters lands two lines down, on 'y'.
   */
  lemma WideLineOvershoots()
    ensures var t := WideExample();
      DownLine(t, 4) == 1 && VerticalTarget(t, 4, 1) == 9 && CharToLine(t, 9) == 2
  {
    WideExampleLines();
    WideExampleWidths();
  }

  /** The char right after a '\n' starts the next line. */
  lemma AfterNewlineIsLineStart(t: seq<char>, p: nat)
    requires p < |t| && t[p] == '\n'
    ensures CharToLine(t, p) + 1 < LenLines(t)
    ensures CharToLine(t, p + 1) == CharToLine(t, p) + 1
    ensures LineToChar(t, CharToLine(t, p) + 1) == p + 1
  {
    CharToLineStep(t, p);
    var y := CharToLine(t, p);
    var r := LineToChar(t, y + 1);
    assert CharToLine(t, p + 1) == y + 1;
    if r <= p {
      CharToLineMonotone(t, r, p);
    }
    assert p + 1 <= r;
    assert r <= p + 1;
  }

  /**
   * Inserting c at p and then deleting the cluster before the cluster after p
   * gives the original text back, provided c forms a cluster of its own
   * (boundaries on both sides of it).
   */
  lemma TypeThenBackspace(t: seq<char>, p: nat, c: char)
    requires p <= |t|
    requires var u := t[..p] + [c] + t[p..]; IsBoundary(u, p) && IsBoundary(u, p + 1)
    ensures var u := t[..p] + [c] + t[p..];
      NextBoundary(u, p) == p + 1
      && PrevBoundary(u, NextBoundary(u, p)) == p
      && u[..p] + u[p + 1..] == t
  {
    var u := t[..p] + [c] + t[p..];
    assert NextBoundary(u, p) <= p + 1;
    PrevOfNext(u, p);
    assert u[..p] == t[..p];
    assert u[p + 1..] == t[p..];
  }

  /**
   * `$` on a line with visible text that is not the last line lands on its
   * '\n', unless the line ends in CR LF, where it lands on the '\r'.
   */
  lemma EndOfLineOnNewline(t: seq<char>, s: nat)
    requires s <= |t|
    requires CharToLine(t, s) + 1 < LenLines(t)
    requires Width(Line(t, CharToLine(t, s))) != 0
    ensures var e := LineToChar(t, CharToLine(t, s) + 1);
      2 <= e && t[e - 1] == '\n'
      && (t[e - 2] != '\r' ==> LineEndTarget(t, s) == e - 1)
      && (t[e - 2] == '\r' ==> LineEndTarget(t, s) == e - 2)
  {
    var y := CharToLine(t, s);
    var a, e := LineToChar(t, y), LineToChar(t, y + 1);
    LineEnds(t, y);
    LineToCharMonotone(t, y, y + 1);
    assert a < e - 1;
    var b := LineEndTarget(t, s);
    if t[e - 2] != '\r' {
      assert IsBoundary(t, e - 1);
      assert b == e - 1;
    } else {
      assert !IsBoundary(t, e - 1);
      assert IsBoundary(t, e - 2);
      assert b == e - 2;
    }
  }
}

=== FILE: movements.dfy ===
/**
 * Cursor movements and edits on the focused window's buffer
 * (core/src/movements.rs; the same functions are repeated in
 * core/src/text.rs). Each reads the focused window's cursor from its
 * buffer, and writes back only that window's entry, always as a span from
 * the new start to the next grapheme boundary; the edits also change the
 * buffer's text. Nothing else in the editor changes.
 */
module Movements {
  import opened Wrappers
  import opened Text
  import opened Lines
  import opened Rope
  import RopeOps = Rope
  import opened Motion
  import opened BufferStore
  import opened WindowStore
  import opened EditorCore

  /** `move_right_nth`: start `count` clusters further on (clamped at the end of the text). */
  method MoveRightNth(ed: Editor, count: nat)
    requires ed.Ready()
    modifies ed.FocusedBuffer()
    ensures ed.Ready()
    ensures ed.FocusedBuffer().content == old(ed.FocusedBuffer().content)
    ensures ed.FocusedBuffer().cursors == old(ed.FocusedBuffer().cursors)[ed.FocusedWindow().id :=
      Span(old(ed.FocusedText()), NextBoundaryNth(old(ed.FocusedText()), old(ed.FocusedStart()), count))]
  {
    var win := ed.windows.GetFocused().value;
    var found := ed.buffers.Get(win.bufferId);
    var buf := found.value;
    var cursor := buf.GetCursor(win.id);
    var content := buf.content;
    var newStart := NextGraphemeBoundaryNth(content, cursor.start, count);
    var newEnd := NextGraphemeBoundary(content, newStart);
    buf.SetCursor(win.id, Cursor(newStart, newEnd));
  }

  /** `move_right`: one cluster to the right. */
  method MoveRight(ed: Editor)
    requires ed.Ready()
    modifies ed.FocusedBuffer()
    ensures ed.Ready()
    ensures ed.FocusedBuffer().content == old(ed.FocusedBuffer().content)
    ensures ed.FocusedBuffer().cursors == old(ed.FocusedBuffer().cursors)[ed.FocusedWindow().id :=
      Span(old(ed.FocusedText()), NextBoundary(old(ed.FocusedText()), old(ed.FocusedStart())))]
  {
    MoveRightNth(ed, 1);
  }

  /** `move_left`: one cluster to the left (staying at 0 at the start). */
  method MoveLeft(ed: Editor)
    requires ed.Ready()
    modifies ed.FocusedBuffer()
    ensures ed.Ready()
    ensures ed.FocusedBuffer().content == old(ed.FocusedBuffer().content)
    ensures ed.FocusedBuffer().cursors == old(ed.FocusedBuffer().cursors)[ed.FocusedWindow().id :=
      Span(old(ed.FocusedText()), PrevBoundary(old(ed.FocusedText()), old(ed.FocusedStart())))]
  {
    var win := ed.windows.GetFocused().value;
    var found := ed.buffers.Get(win.bufferId);
    var buf := found.value;
    var cursor := buf.GetCursor(win.id);
    var content := buf.content;
    var newStart := PrevGraphemeBoundaryNth(content, cursor.start, 1);
    var newEnd := NextGraphemeBoundary(content, newStart);
    buf.SetCursor(win.id, Cursor(newStart, newEnd));
  }

  /**
   * `move_up` / `move_down` (the shared body): aim at line `target` as
   * VerticalTarget says. Handing an index past the end of the text to the
   * boundary search aborts; then nothing is written.
   */
  method MoveVertically(ed: Editor, down: bool) returns (ok: bool)
    requires ed.Ready()
    modifies ed.FocusedBuffer()
    ensures ed.FocusedBuffer().content == old(ed.FocusedBuffer().content)
    ensures var t := old(ed.FocusedText());
      var s := old(ed.FocusedStart());
      var v := VerticalTarget(t, s, if down then DownLine(t, s) else UpLine(t, s));
      (ok <==> v <= |t|)
      && (ok ==> ed.FocusedBuffer().cursors == old(ed.FocusedBuffer().cursors)[ed.FocusedWindow().id := Span(t, v)])
      && (!ok ==> ed.FocusedBuffer().cursors == old(ed.FocusedBuffer().cursors))
    ensures ok ==> ed.Ready()
  {
    var win := ed.windows.GetFocused().value;
    var found := ed.buffers.Get(win.bufferId);
    var buf := found.value;
    ok := VerticalStep(buf, win.id, down);
  }

  /** The body of MoveVertically once the focused buffer is found. */
  method VerticalStep(buf: Buffer, w: nat, down: bool) returns (ok: bool)
    requires w in buf.cursors && WellFormed(buf.content)
    requires buf.cursors[w].start <= |Contents(buf.content)|
    modifies buf
    ensures buf.content == old(buf.content)
    ensures var t := Contents(buf.content);
      var s := old(buf.cursors[w].start);
      var v := VerticalTarget(t, s, if down then DownLine(t, s) else UpLine(t, s));
      (ok <==> v <= |t|)
      && (ok ==> buf.cursors == old(buf.cursors)[w := Span(t, v)])
      && (!ok ==> buf.cursors == old(buf.cursors))
  {
    var cursor := buf.GetCursor(w);
    var content := Contents(buf.content);

    var curLineIndex := CharToLine(content, cursor.start);
    var newLineIndex;
    if down {
      var linesLen := SatSubLines(LenLines(content));
      newLineIndex := Min(curLineIndex + 1, linesLen);
    } else {
      newLineIndex := if curLineIndex >= 1 then curLineIndex - 1 else 0;
    }
    assert newLineIndex == if down then DownLine(content, cursor.start) else UpLine(content, cursor.start);
    LineOfIndex(content, cursor.start);
    var curCol := Width(content[LineToChar(content, curLineIndex)..cursor.start]);
    var newLineWidth := Width(Line(content, newLineIndex));
    var charOffset := LineToChar(content, newLineIndex) + Min(newLineWidth, curCol);
    if charOffset > |content| {
      // `char_to_byte` inside the boundary search rejects the index.
      return false;
    }
    var newEnd := NextGraphemeBoundary(buf.content, charOffset);
    buf.SetCursor(w, Cursor(charOffset, newEnd));
    return true;
  }

  /** `len_lines().saturating_sub(1)`: the index of the last line. */
  function SatSubLines(n: nat): nat {
    if n >= 1 then n - 1 else 0
  }

  /** `move_up`: to the line above (the first line stays), column by the vertical rule. */
  method MoveUp(ed: Editor) returns (ok: bool)
    requires ed.Ready()
    modifies ed.FocusedBuffer()
    ensures ed.FocusedBuffer().content == old(ed.FocusedBuffer().content)
    ensures var t := old(ed.FocusedText());
      var s := old(ed.FocusedStart());
      var v := VerticalTarget(t, s, UpLine(t, s));
      (ok <==> v <= |t|)
      && (ok ==> ed.FocusedBuffer().cursors == old(ed.FocusedBuffer().cursors)[ed.FocusedWindow().id := Span(t, v)])
      && (!ok ==> ed.FocusedBuffer().cursors == old(ed.FocusedBuffer().cursors))
    ensures ok ==> ed.Ready()
  {
    ok := MoveVertically(ed, false);
  }

  /** `move_down`: to the line below (the last line stays), column by the vertical rule. */
  method MoveDown(ed: Editor) returns (ok: bool)
    requires ed.Ready()
    modifies ed.FocusedBuffer()
    ensures ed.FocusedBuffer().content == old(ed.FocusedBuffer().content)
    ensures var t := old(ed.FocusedText());
      var s := old(ed.FocusedStart());
      var v := VerticalTarget(t, s, DownLine(t, s));
      (ok <==> v <= |t|)
      && (ok ==> ed.FocusedBuffer().cursors == old(ed.FocusedBuffer().cursors)[ed.FocusedWindow().id := Span(t, v)])
      && (!ok ==> ed.FocusedBuffer().cursors == old(ed.FocusedBuffer().cursors))
    ensures ok ==> ed.Ready()
  {
    ok := MoveVertically(ed, true);
  }

  /** `goto_start_of_line`: to the first index of the cursor's line. */
  method GotoStartOfLine(ed: Editor)
    requires ed.Ready()
    modifies ed.FocusedBuffer()
    ensures ed.Ready()
    ensures ed.FocusedBuffer().content == old(ed.FocusedBuffer().content)
    ensures ed.FocusedBuffer().cursors == old(ed.FocusedBuffer().cursors)[ed.FocusedWindow().id :=
      Span(old(ed.FocusedText()), LineStart(old(ed.FocusedText()), old(ed.FocusedStart())))]
  {
    var win := ed.windows.GetFocused().value;
    var found := ed.buffers.Get(win.bufferId);
    var buf := found.value;
    var content := Contents(buf.content);
    var cursorPos := buf.GetCursor(win.id).start;
    var lineIndex := CharToLine(content, cursorPos);
    var startIndex := LineToChar(content, lineIndex);
    LineOfIndex(content, cursorPos);
    var newEnd := NextGraphemeBoundary(buf.content, startIndex);
    buf.SetCursor(win.id, Cursor(startIndex, newEnd));
  }

  /**
   * `goto_end_of_line`: nothing on a line of width 0; otherwise to the last
   * boundary before the next line's start (on a line ending in '\n', the
   * '\n' itself; see Motion.EndOfLineOnNewline).
   */
  method GotoEndOfLine(ed: Editor)
    requires ed.Ready()
    modifies ed.FocusedBuffer()
    ensures ed.Ready()
    ensures ed.FocusedBuffer().content == old(ed.FocusedBuffer().content)
    ensures var t := old(ed.FocusedText());
      var s := old(ed.FocusedStart());
      (Width(Line(t, CharToLine(t, s))) == 0 ==> ed.FocusedBuffer().cursors == old(ed.FocusedBuffer().cursors))
      && (Width(Line(t, CharToLine(t, s))) != 0 ==>
            ed.FocusedBuffer().cursors == old(ed.FocusedBuffer().cursors)[ed.FocusedWindow().id := Span(t, LineEndTarget(t, s))])
  {
    var win := ed.windows.GetFocused().value;
    var found := ed.buffers.Get(win.bufferId);
    var buf := found.value;
    var content := Contents(buf.content);
    var cursorPos := buf.GetCursor(win.id).start;
    var lineIndex := CharToLine(content, cursorPos);
    if Width(Line(content, lineIndex)) == 0 {
      return;
    }
    var startIndex := LineToChar(content, lineIndex + 1);
    var index := PrevGraphemeBoundary(buf.content, startIndex);
    var newEnd := NextGraphemeBoundary(buf.content, index);
    buf.SetCursor(win.id, Cursor(index, newEnd));
  }

  /** The first half of `insert_char` and `insert_new_line`: put c at the cursor's start, cursors unchanged. */
  method InsertAtCursor(ed: Editor, c: char)
    requires ed.Ready()
    modifies ed.FocusedBuffer()
    ensures ed.Ready()
    ensures var t := old(ed.FocusedText());
      var s := old(ed.FocusedStart());
      ed.FocusedText() == t[..s] + [c] + t[s..]
      && ed.FocusedBuffer().cursors == old(ed.FocusedBuffer().cursors)
  {
    var win := ed.windows.GetFocused().value;
    var found := ed.buffers.Get(win.bufferId);
    var buf := found.value;
    var cursorPos := buf.GetCursor(win.id).start;
    buf.content := RopeOps.InsertChar(buf.content, cursorPos, c);
  }

  /** `insert_char`: put c at the cursor's start, then move right over the new text. */
  method InsertChar(ed: Editor, c: char)
    requires ed.Ready()
    modifies ed.FocusedBuffer()
    ensures ed.Ready()
    ensures var t := old(ed.FocusedText());
      var s := old(ed.FocusedStart());
      var u := t[..s] + [c] + t[s..];
      ed.FocusedText() == u
      && ed.FocusedBuffer().cursors == old(ed.FocusedBuffer().cursors)[ed.FocusedWindow().id := Span(u, NextBoundary(u, s))]
  {
    InsertAtCursor(ed, c);
    MoveRight(ed);
  }

  /**
   * `insert_new_line`: put '\n' at the cursor's start, move down, then go to
   * the start of the line reached. The move down can abort (see
   * MoveVertically), after the text has changed.
   */
  method InsertNewLine(ed: Editor) returns (ok: bool)
    requires ed.Ready()
    modifies ed.FocusedBuffer()
    ensures var t := old(ed.FocusedText());
      var s := old(ed.FocusedStart());
      var u := t[..s] + ['\n'] + t[s..];
      var v := VerticalTarget(u, s, DownLine(u, s));
      Contents(ed.FocusedBuffer().content) == u
      && (ok <==> v <= |u|)
      && (ok ==> ed.Ready() && ed.FocusedBuffer().cursors == old(ed.FocusedBuffer().cursors)[ed.FocusedWindow().id := Span(u, LineStart(u, v))])
  {
    InsertAtCursor(ed, '\n');
    ok := MoveDown(ed);
    if !ok {
      return;
    }
    GotoStartOfLine(ed);
  }

  /**
   * `delete_char`: move left, then remove the one char at the new start.
   * There is no guard at the start of the text, so at 0 it removes char 0;
   * removing past the end of the text (an empty text) aborts after the move.
   */
  method DeleteChar(ed: Editor) returns (ok: bool)
    requires ed.Ready()
    modifies ed.FocusedBuffer()
    ensures var t := old(ed.FocusedText());
      var p := PrevBoundary(t, old(ed.FocusedStart()));
      ed.FocusedBuffer().cursors == old(ed.FocusedBuffer().cursors)[ed.FocusedWindow().id := Span(t, p)]
      && (ok <==> p < |t|)
      && (ok ==> ed.Ready() && Contents(ed.FocusedBuffer().content) == t[..p] + t[p + 1..])
      && (!ok ==> ed.FocusedBuffer().content == old(ed.FocusedBuffer().content))
  {
    MoveLeft(ed);
    var win := ed.windows.GetFocused().value;
    var found := ed.buffers.Get(win.bufferId);
    var buf := found.value;
    var cursorPos := buf.GetCursor(win.id).start;
    if cursorPos + 1 > |Contents(buf.content)| {
      // `Rope::remove` rejects a range past the end of the text.
      return false;
    }
    buf.content := RopeOps.RemoveChar(buf.content, cursorPos);
    return true;
  }

  /**
   * Enter on a line below which the new line has no wide characters puts the
   * cursor at the start of the new line, one past the inserted '\n'.
   */
  lemma NewLineLandsOnNextLineStart(t: seq<char>, s: nat)
    requires s <= |t|
    requires var u := t[..s] + ['\n'] + t[s..];
      CharToLine(u, s) + 1 < LenLines(u) && Narrow(Line(u, CharToLine(u, s) + 1))
    ensures var u := t[..s] + ['\n'] + t[s..];
      var v := VerticalTarget(u, s, DownLine(u, s));
      v <= |u| && LineStart(u, v) == s + 1
  {
    var u := t[..s] + ['\n'] + t[s..];
    assert u[s] == '\n';
    AfterNewlineIsLineStart(u, s);
    var y := CharToLine(u, s);
    assert DownLine(u, s) == y + 1;
    VerticalStaysOnNarrowLine(u, s, y + 1);
  }
}

=== FILE: prompt.dfy ===
/**
 * The command prompt component (core/src/prompt.rs): a line of input
 * edited by key presses and closed by Esc. Executing a command is not
 * written yet in the program, so Enter aborts.
 */
module Prompt {
  import opened Wrappers
  import opened Layout
  import opened Components

  /** Bytes one char takes in UTF-8 (`char::len_utf8`). */
  function Utf8Width(c: char): (n: nat)
    ensures 1 <= n <= 4
    ensures n == 1 <==> c < '\U{80}'
  {
    if c < '\U{80}' then 1
    else if c < '\U{800}' then 2
    else if c < '\U{10000}' then 3
    else 4
  }

  /** `String::len`: the UTF-8 byte length of s, between one and four bytes per char. */
  function Utf8Len(s: string): (n: nat)
    ensures |s| <= n <= 4 * |s|
  {
    if s == [] then 0 else Utf8Width(s[0]) + Utf8Len(s[1..])
  }

  /** On ASCII input the byte length is the number of chars. */
  lemma {:induction false} AsciiLen(s: string)
    requires forall i :: 0 <= i < |s| ==> s[i] < '\U{80}'
    ensures Utf8Len(s) == |s|
  {
    if s != [] {
      AsciiLen(s[1..]);
    }
  }

  /** The byte length of a concatenation adds up, so typing a char adds its UTF-8 width. */
  lemma {:induction false} Utf8LenAppend(a: string, b: string)
    ensures Utf8Len(a + b) == Utf8Len(a) + Utf8Len(b)
  {
    if a == [] {
      assert a + b == b;
    } else {
      assert (a + b)[1..] == a[1..] + b;
      Utf8LenAppend(a[1..], b);
    }
  }

  class CommandPrompt {
    var input: string

    /** `CommandPrompt::new`: empty input. */
    constructor()
      ensures input == []
    {
      input := [];
    }

    /**
     * `handle_key_events`: a char is appended, Backspace drops the last char
     * (nothing on empty input), Enter aborts, Esc hands back the callback
     * that closes the prompt, and every other key is consumed without effect.
     */
    method HandleKeyEvents(key: Key) returns (r: Outcome<Propagation>)
      modifies this
      ensures key.Char? ==> input == old(input) + [key.c]
      ensures key.Backspace? ==> input == (if old(input) == [] then [] else old(input)[..|old(input)| - 1])
      ensures !key.Char? && !key.Backspace? ==> input == old(input)
      ensures key.Enter? <==> r == Aborted(NotImplemented)
      ensures key.Esc? <==> r == Done(Consume(Some(ExitPrompt)))
      ensures !key.Enter? && !key.Esc? ==> r == Done(Consume(None))
    {
      match key {
        case Char(c) =>
          input := input + [c];
        case Backspace =>
          if input != [] {
            input := input[..|input| - 1];
          }
        case Enter =>
          return Aborted(NotImplemented);
        case Esc =>
          return Done(Consume(Some(ExitPrompt)));
        case OtherKey(_) =>
      }
      return Done(Consume(None));
    }

    /** `handle_events`: key presses go to HandleKeyEvents; any other event is ignored. */
    method HandleEvents(event: Event) returns (r: Outcome<Propagation>)
      modifies this
      ensures event.OtherEvent? ==> r == Done(Ignore(None)) && input == old(input)
      ensures event.KeyPress? ==>
        var key := event.key;
        (key.Char? ==> input == old(input) + [key.c])
        && (key.Backspace? ==> input == (if old(input) == [] then [] else old(input)[..|old(input)| - 1]))
        && (!key.Char? && !key.Backspace? ==> input == old(input))
        && (key.Enter? <==> r == Aborted(NotImplemented))
        && (key.Esc? <==> r == Done(Consume(Some(ExitPrompt))))
        && (!key.Enter? && !key.Esc? ==> r == Done(Consume(None)))
    {
      match event {
        case KeyPress(key) =>
          r := HandleKeyEvents(key);
        case OtherEvent =>
          r := Done(Ignore(None));
      }
    }

    /**
     * `cursor`: one column past the ':' and the input, counted in bytes, on
     * the last row of the area. On an area of height 0 the row underflows.
     */
    function Cursor(area: Area): (r: Outcome<Position>)
      reads this
      ensures r.Done? <==> area.height >= 1
      ensures r.Aborted? ==> r.reason == Underflow
      ensures r.Done? ==> r.value.y + 1 == area.height && r.value.x == Utf8Len(input) + 1
      ensures r.Done? ==> |input| < r.value.x <= 4 * |input| + 1
    {
      if area.height < 1 then Aborted(Underflow)
      else Done(Position(Utf8Len(input) + 1, area.height - 1))
    }
  }
}

=== FILE: rope.dfy ===
/**
 * The chunked text the editor stores (a rope) and the grapheme searches that
 * walk it chunk by chunk (core/src/text.rs). Each search is proved to give
 * the same answer as the flat definitions of module Text, whatever the
 * chunking. Positions are char indices; the byte offsets of the source
 * appear here as char offsets.
 */
module Rope {
  import opened Unicode
  import opened Text
  import opened Wrappers

  /** A text as the rope stores it: a sequence of chunks. */
  datatype Rope = Rope(chunks: seq<seq<char>>)

  /** A rope always has at least one chunk (an empty text has one empty chunk). */
  predicate WellFormed(rope: Rope) {
    |rope.chunks| >= 1
  }

  function Flatten(cs: seq<seq<char>>): seq<char> {
    if cs == [] then [] else cs[0] + Flatten(cs[1..])
  }

  /** The text a rope stands for. */
  function Contents(rope: Rope): seq<char> {
    Flatten(rope.chunks)
  }

  /** The char offset at which chunk k starts. */
  function Offset(cs: seq<seq<char>>, k: nat): nat
    requires k <= |cs|
  {
    |Flatten(cs[..k])|
  }

  lemma {:induction false} FlattenAppend(a: seq<seq<char>>, b: seq<seq<char>>)
    ensures Flatten(a + b) == Flatten(a) + Flatten(b)
  {
    if a == [] {
      assert a + b == b;
    } else {
      assert (a + b)[1..] == a[1..] + b;
      FlattenAppend(a[1..], b);
    }
  }

  /** Chunk k occupies Offset(k)..Offset(k + 1) of the text. */
  lemma ChunkInText(cs: seq<seq<char>>, k: nat)
    requires k < |cs|
    ensures Offset(cs, k + 1) == Offset(cs, k) + |cs[k]|
    ensures Offset(cs, k + 1) <= |Flatten(cs)|
    ensures Flatten(cs)[Offset(cs, k)..Offset(cs, k + 1)] == cs[k]
  {
    assert cs[..k + 1] == cs[..k] + [cs[k]];
    FlattenAppend(cs[..k], [cs[k]]);
    assert Flatten([cs[k]]) == cs[k] + Flatten([]);
    assert cs == cs[..k + 1] + cs[k + 1..];
    FlattenAppend(cs[..k + 1], cs[k + 1..]);
  }

  lemma ChunkChar(cs: seq<seq<char>>, k: nat, m: nat)
    requires k < |cs| && m < |cs[k]|
    ensures Offset(cs, k) + m < |Flatten(cs)|
    ensures Flatten(cs)[Offset(cs, k) + m] == cs[k][m]
  {
    ChunkInText(cs, k);
    assert Flatten(cs)[Offset(cs, k)..Offset(cs, k + 1)][m] == cs[k][m];
  }

  lemma OffsetEnds(cs: seq<seq<char>>)
    ensures Offset(cs, 0) == 0
    ensures Offset(cs, |cs|) == |Flatten(cs)|
  {
    assert cs[..0] == [];
    assert cs[..|cs|] == cs;
  }

  /**
   * `chunk_at_byte`: the index of the chunk holding position pos, or the last
   * chunk when pos is the end of the text.
   */
  function ChunkAt(cs: seq<seq<char>>, pos: nat): (k: nat)
    requires |cs| >= 1 && pos <= |Flatten(cs)|
    ensures k < |cs| && Offset(cs, k) <= pos <= Offset(cs, k) + |cs[k]|
    ensures pos < |Flatten(cs)| ==> pos < Offset(cs, k) + |cs[k]|
  {
    OffsetEnds(cs);
    ChunkFrom(cs, pos, 0)
  }

  function ChunkFrom(cs: seq<seq<char>>, pos: nat, k: nat): (r: nat)
    requires k < |cs| && Offset(cs, k) <= pos <= |Flatten(cs)|
    ensures r < |cs| && Offset(cs, r) <= pos <= Offset(cs, r) + |cs[r]|
    ensures pos < |Flatten(cs)| ==> pos < Offset(cs, r) + |cs[r]|
    decreases |cs| - k
  {
    ChunkInText(cs, k);
    OffsetEnds(cs);
    if k == |cs| - 1 || pos < Offset(cs, k + 1) then k else ChunkFrom(cs, pos, k + 1)
  }

  /** The text is the chunks before k, chunk k, then the chunks after k. */
  lemma FlattenAround(cs: seq<seq<char>>, k: nat)
    requires k < |cs|
    ensures Flatten(cs) == Flatten(cs[..k]) + cs[k] + Flatten(cs[k + 1..])
  {
    var rest := cs[k + 1..];
    var tail := [cs[k]] + rest;
    assert tail[0] == cs[k] && tail[1..] == rest;
    assert Flatten(tail) == cs[k] + Flatten(rest);
    assert cs == cs[..k] + tail;
    FlattenAppend(cs[..k], tail);
  }

  /** Cutting a + x + b at |a| + m cuts x at m. */
  lemma CutInside(a: seq<char>, x: seq<char>, b: seq<char>, m: nat)
    requires m <= |x|
    ensures (a + x + b)[..|a| + m] == a + x[..m]
    ensures (a + x + b)[|a| + m..] == x[m..] + b
  {
  }

  /** Replacing chunk k by x replaces exactly that stretch of the text. */
  lemma FlattenReplace(cs: seq<seq<char>>, k: nat, x: seq<char>)
    requires k < |cs|
    ensures Flatten(cs[k := x]) == Flatten(cs[..k]) + x + Flatten(cs[k + 1..])
  {
    var cs' := cs[k := x];
    FlattenAround(cs', k);
    assert cs'[..k] == cs[..k];
    assert cs'[k + 1..] == cs[k + 1..];
  }

  /**
   * `Rope::insert_char`: insert c into the chunk holding pos; the text gains
   * c at pos and nothing else changes.
   */
  function InsertChar(rope: Rope, pos: nat, c: char): (r: Rope)
    requires WellFormed(rope) && pos <= |Contents(rope)|
    ensures WellFormed(r) && |r.chunks| == |rope.chunks|
    ensures Contents(r) == Contents(rope)[..pos] + [c] + Contents(rope)[pos..]
  {
    var cs := rope.chunks;
    var k := ChunkAt(cs, pos);
    var m := pos - Offset(cs, k);
    var chunk := cs[k];
    var x := chunk[..m] + [c] + chunk[m..];
    FlattenAround(cs, k);
    FlattenReplace(cs, k, x);
    CutInside(Flatten(cs[..k]), chunk, Flatten(cs[k + 1..]), m);
    CutInside(Flatten(cs[..k]), x, Flatten(cs[k + 1..]), m);
    Rope(cs[k := x])
  }

  /**
   * `Rope::remove(pos..pos + 1)`: drop the char at pos from the chunk holding
   * it; the text loses exactly that char.
   */
  function RemoveChar(rope: Rope, pos: nat): (r: Rope)
    requires WellFormed(rope) && pos < |Contents(rope)|
    ensures WellFormed(r) && |r.chunks| == |rope.chunks|
    ensures Contents(r) == Contents(rope)[..pos] + Contents(rope)[pos + 1..]
  {
    var cs := rope.chunks;
    var k := ChunkAt(cs, pos);
    var m := pos - Offset(cs, k);
    var chunk := cs[k];
    var x := chunk[..m] + chunk[m + 1..];
    FlattenAround(cs, k);
    FlattenReplace(cs, k, x);
    CutInside(Flatten(cs[..k]), chunk, Flatten(cs[k + 1..]), m);
    CutInside(Flatten(cs[..k]), chunk, Flatten(cs[k + 1..]), m + 1);
    Rope(cs[k := x])
  }

  /** NextBoundary is the only boundary after pos with no boundary in between. */
  lemma NextBoundaryUnique(text: seq<char>, pos: nat, b: nat)
    requires pos < b <= |text| && IsBoundary(text, b)
    requires forall k :: pos < k < b ==> !IsBoundary(text, k)
    ensures NextBoundary(text, pos) == b
  {
    var n := NextBoundary(text, pos);
    assert n <= b;
    assert b <= n;
  }

  /** PrevBoundary is the only boundary before pos with no boundary in between. */
  lemma PrevBoundaryUnique(text: seq<char>, pos: nat, b: nat)
    requires b < pos <= |text| && IsBoundary(text, b)
    requires forall k :: b < k < pos ==> !IsBoundary(text, k)
    ensures PrevBoundary(text, pos) == b
  {
    var p := PrevBoundary(text, pos);
    assert p <= b;
    assert b <= p;
  }

  /**
   * One forward step of the grapheme cursor over the chunks: from pos (in or
   * at the end of chunk ci), request following chunks as needed and stop at
   * the next boundary. chunkStart stays the offset of the current chunk.
   */
  method SeekNext(cs: seq<seq<char>>, pos: nat, ci0: nat, start0: nat) returns (b: nat, ci: nat, chunkStart: nat)
    requires pos < |Flatten(cs)|
    requires ci0 < |cs| && start0 == Offset(cs, ci0) && start0 <= pos <= start0 + |cs[ci0]|
    ensures b == NextBoundary(Flatten(cs), pos)
    ensures ci < |cs| && chunkStart == Offset(cs, ci) && chunkStart <= b <= chunkStart + |cs[ci]|
    ensures b < |Flatten(cs)| ==> b < chunkStart + |cs[ci]|
  {
    ghost var text := Flatten(cs);
    var total := |Flatten(cs)|;
    OffsetEnds(cs);
    ci, chunkStart := ci0, start0;
    var chunk := cs[ci];
    // At the end of a chunk the cursor asks for the next one before it can read.
    while pos == chunkStart + |chunk|
      invariant ci < |cs| && chunkStart == Offset(cs, ci) && chunk == cs[ci]
      invariant chunkStart <= pos <= chunkStart + |chunk|
      decreases |cs| - ci
    {
      ChunkInText(cs, ci);
      chunkStart := chunkStart + |chunk|;
      ci := ci + 1;
      chunk := cs[ci];
    }
    ChunkChar(cs, ci, pos - chunkStart);
    var prev := chunk[pos - chunkStart];
    var j := pos + 1;
    while true
      invariant pos < j <= total
      invariant ci < |cs| && chunkStart == Offset(cs, ci) && chunk == cs[ci]
      invariant chunkStart <= j <= chunkStart + |chunk|
      invariant prev == text[j - 1]
      invariant forall k :: pos < k < j ==> !IsBoundary(text, k)
      decreases total - j, |cs| - ci
    {
      if j == total {
        // The end of the text is a boundary (GB2).
        break;
      }
      if j == chunkStart + |chunk| {
        // GraphemeIncomplete::NextChunk: move to the following chunk.
        ChunkInText(cs, ci);
        chunkStart := chunkStart + |chunk|;
        ci := ci + 1;
        chunk := cs[ci];
        if j == chunkStart + |chunk| {
          continue;
        }
      }
      ChunkChar(cs, ci, j - chunkStart);
      var next := chunk[j - chunkStart];
      if IsBreak(prev, next) {
        break;
      }
      prev := next;
      j := j + 1;
    }
    b := j;
    NextBoundaryUnique(text, pos, b);
  }

  /**
   * One backward step of the grapheme cursor over the chunks: from pos (in or
   * at the end of chunk ci), request earlier chunks as needed and stop at the
   * previous boundary.
   */
  method SeekPrev(cs: seq<seq<char>>, pos: nat, ci0: nat, start0: nat) returns (b: nat, ci: nat, chunkStart: nat)
    requires 0 < pos <= |Flatten(cs)|
    requires ci0 < |cs| && start0 == Offset(cs, ci0) && start0 <= pos <= start0 + |cs[ci0]|
    ensures b == PrevBoundary(Flatten(cs), pos)
    ensures ci < |cs| && chunkStart == Offset(cs, ci) && chunkStart <= b <= chunkStart + |cs[ci]|
  {
    ghost var text := Flatten(cs);
    OffsetEnds(cs);
    ci, chunkStart := ci0, start0;
    var chunk := cs[ci];
    // At the start of a chunk the cursor asks for the previous one before it can read.
    while pos == chunkStart
      invariant ci < |cs| && chunkStart == Offset(cs, ci) && chunk == cs[ci]
      invariant chunkStart <= pos <= chunkStart + |chunk|
      decreases ci
    {
      assert ci > 0;
      ChunkInText(cs, ci - 1);
      ci := ci - 1;
      chunk := cs[ci];
      chunkStart := chunkStart - |chunk|;
    }
    var j := pos - 1;
    ChunkChar(cs, ci, j - chunkStart);
    var after := chunk[j - chunkStart];
    while true
      invariant j < pos
      invariant ci < |cs| && chunkStart == Offset(cs, ci) && chunk == cs[ci]
      invariant chunkStart <= j < chunkStart + |chunk| || (j == chunkStart + |chunk| && j < |text|)
      invariant after == text[j]
      invariant forall k :: j < k < pos ==> !IsBoundary(text, k)
      decreases j, ci
    {
      if j == 0 {
        // The start of the text is a boundary (GB1).
        break;
      }
      if j == chunkStart {
        // GraphemeIncomplete::PrevChunk: move to the preceding chunk.
        assert ci > 0;
        ChunkInText(cs, ci - 1);
        ci := ci - 1;
        chunk := cs[ci];
        chunkStart := chunkStart - |chunk|;
        continue;
      }
      ChunkChar(cs, ci, j - 1 - chunkStart);
      var before := chunk[j - 1 - chunkStart];
      if IsBreak(before, after) {
        break;
      }
      after := before;
      j := j - 1;
    }
    b := j;
    PrevBoundaryUnique(text, pos, b);
  }

  /** Once the forward search has reached the end it stays there. */
  lemma {:induction false} NextNthStaysAtEnd(text: seq<char>, i: nat, k: nat, n: nat)
    requires i <= |text| && k <= n && NextBoundaryNth(text, i, k) == |text|
    ensures NextBoundaryNth(text, i, n) == |text|
    decreases n - k
  {
    if k < n {
      NextNthStaysAtEnd(text, i, k + 1, n);
    }
  }

  /** Once the backward search has reached the start it stays there. */
  lemma {:induction false} PrevNthStaysAtStart(text: seq<char>, i: nat, k: nat, n: nat)
    requires i <= |text| && k <= n && PrevBoundaryNth(text, i, k) == 0
    ensures PrevBoundaryNth(text, i, n) == 0
    decreases n - k
  {
    if k < n {
      PrevNthStaysAtStart(text, i, k + 1, n);
    }
  }

  /**
   * `next_grapheme_boundary_nth` over the chunks: the same index as the flat
   * NextBoundaryNth, whatever the chunking.
   */
  method NextGraphemeBoundaryNth(rope: Rope, charIdx: nat, count: nat) returns (r: nat)
    requires WellFormed(rope) && charIdx <= |Contents(rope)|
    ensures r == NextBoundaryNth(Contents(rope), charIdx, count)
  {
    var cs := rope.chunks;
    var total := |Flatten(cs)|;
    var pos: nat := charIdx;
    var ci: nat := ChunkAt(cs, pos);
    var chunkStart: nat := Offset(cs, ci);
    for k := 0 to count
      invariant pos == NextBoundaryNth(Contents(rope), charIdx, k)
      invariant ci < |cs| && chunkStart == Offset(cs, ci) && chunkStart <= pos <= chunkStart + |cs[ci]|
    {
      if pos == total {
        // The cursor reports no further boundary: answer the length.
        NextNthStaysAtEnd(Contents(rope), charIdx, k, count);
        return total;
      }
      pos, ci, chunkStart := SeekNext(cs, pos, ci, chunkStart);
    }
    r := chunkStart + (pos - chunkStart);
  }

  /**
   * `prev_grapheme_boundary_nth` over the chunks: the same index as the flat
   * PrevBoundaryNth, whatever the chunking.
   */
  method PrevGraphemeBoundaryNth(rope: Rope, charIdx: nat, count: nat) returns (r: nat)
    requires WellFormed(rope) && charIdx <= |Contents(rope)|
    ensures r == PrevBoundaryNth(Contents(rope), charIdx, count)
  {
    var cs := rope.chunks;
    var pos: nat := charIdx;
    var ci: nat := ChunkAt(cs, pos);
    var chunkStart: nat := Offset(cs, ci);
    for k := 0 to count
      invariant pos == PrevBoundaryNth(Contents(rope), charIdx, k)
      invariant ci < |cs| && chunkStart == Offset(cs, ci) && chunkStart <= pos <= chunkStart + |cs[ci]|
    {
      if pos == 0 {
        // The cursor reports no earlier boundary: answer 0.
        PrevNthStaysAtStart(Contents(rope), charIdx, k, count);
        return 0;
      }
      pos, ci, chunkStart := SeekPrev(cs, pos, ci, chunkStart);
    }
    r := chunkStart + (pos - chunkStart);
  }

  /** `next_grapheme_boundary`: the count-one instance. */
  method NextGraphemeBoundary(rope: Rope, charIdx: nat) returns (r: nat)
    requires WellFormed(rope) && charIdx <= |Contents(rope)|
    ensures r == NextBoundary(Contents(rope), charIdx)
  {
    r := NextGraphemeBoundaryNth(rope, charIdx, 1);
  }

  /** `prev_grapheme_boundary`: the count-one instance. */
  method PrevGraphemeBoundary(rope: Rope, charIdx: nat) returns (r: nat)
    requires WellFormed(rope) && charIdx <= |Contents(rope)|
    ensures r == PrevBoundary(Contents(rope), charIdx)
  {
    r := PrevGraphemeBoundaryNth(rope, charIdx, 1);
  }

  /**
   * `width` of a whole rope: read the single chunk directly when there is
   * one, otherwise collect the chunks into one string first. Both paths
   * measure the same text.
   */
  function RopeWidth(rope: Rope): (w: nat)
    ensures w == Width(Contents(rope))
  {
    if |rope.chunks| == 1 then
      assert rope.chunks[1..] == [];
      assert Contents(rope) == rope.chunks[0] + Flatten([]) == rope.chunks[0];
      Width(rope.chunks[0])
    else
      Width(Flatten(rope.chunks))
  }

  /** Chunk k's slice a..b (offsets in the text) is the text's slice a..b. */
  lemma ChunkSlice(cs: seq<seq<char>>, k: nat, a: nat, b: nat)
    requires k < |cs| && Offset(cs, k) <= a <= b <= Offset(cs, k) + |cs[k]|
    ensures b <= |Flatten(cs)|
    ensures cs[k][a - Offset(cs, k)..b - Offset(cs, k)] == Flatten(cs)[a..b]
  {
    ChunkInText(cs, k);
    SliceOfSlice(Flatten(cs), Offset(cs, k), Offset(cs, k + 1), a, b);
  }

  /** Slicing a slice is slicing the whole, with the offsets shifted. */
  lemma SliceOfSlice(t: seq<char>, s: nat, e: nat, a: nat, b: nat)
    requires s <= a <= b <= e <= |t|
    ensures t[s..e][a - s..b - s] == t[a..b]
  {
    var u := t[s..e][a - s..b - s];
    assert |u| == b - a;
    forall i | 0 <= i < b - a ensures u[i] == t[a + i] {
      assert u[i] == t[s..e][a - s + i];
    }
  }

  /**
   * One step of `next`: find the boundary after pos and take the cluster
   * from the chunk it ends in, or from the whole rope when the cluster
   * began in an earlier chunk.
   */
  method ReadCluster(cs: seq<seq<char>>, pos: nat, ci0: nat, start0: nat)
    returns (slice: seq<char>, b: nat, ci: nat, chunkStart: nat)
    requires pos < |Flatten(cs)|
    requires ci0 < |cs| && start0 == Offset(cs, ci0) && start0 <= pos <= start0 + |cs[ci0]|
    ensures b == NextBoundary(Flatten(cs), pos) && slice == Flatten(cs)[pos..b]
    ensures ci < |cs| && chunkStart == Offset(cs, ci) && chunkStart <= b <= chunkStart + |cs[ci]|
  {
    b, ci, chunkStart := SeekNext(cs, pos, ci0, start0);
    if pos < chunkStart {
      // The cluster began in an earlier chunk: slice the rope itself.
      slice := Flatten(cs)[pos..b];
    } else {
      ChunkSlice(cs, ci, pos, b);
      slice := cs[ci][pos - chunkStart..b - chunkStart];
    }
  }

  /**
   * The extended grapheme clusters of text from position `from` on, in
   * order: non-empty slices between consecutive boundaries that together
   * make up the rest of the text.
   */
  function Graphemes(text: seq<char>, from: nat): (gs: seq<seq<char>>)
    requires from <= |text|
    ensures Flatten(gs) == text[from..]
    ensures forall k :: 0 <= k < |gs| ==> gs[k] != []
    decreases |text| - from
  {
    if from == |text| then []
    else
      var b := NextBoundary(text, from);
      var rest := Graphemes(text, b);
      assert ([text[from..b]] + rest)[1..] == rest;
      assert text[from..b] + text[b..] == text[from..];
      [text[from..b]] + rest
  }

  /**
   * `RopeGraphemes`: an iterator over the grapheme clusters of a rope. It
   * keeps the chunk it is reading, that chunk's start offset and the
   * grapheme cursor's position; `yielded` records what it has produced.
   */
  class RopeGraphemes {
    const rope: Rope
    var curChunk: nat
    var curChunkStart: nat
    var cursor: nat
    ghost var yielded: seq<seq<char>>

    ghost predicate Valid()
      reads this
    {
      WellFormed(rope)
      && curChunk < |rope.chunks| && curChunkStart == Offset(rope.chunks, curChunk)
      && curChunkStart <= cursor <= curChunkStart + |rope.chunks[curChunk]|
      && cursor <= |Contents(rope)|
      && yielded + Graphemes(Contents(rope), cursor) == Graphemes(Contents(rope), 0)
    }

    /** `RopeGraphemes::new`: start on the first chunk, at position 0, having produced nothing. */
    constructor(r: Rope)
      requires WellFormed(r)
      ensures Valid() && rope == r && cursor == 0 && yielded == []
    {
      rope := r;
      curChunk := 0;
      curChunkStart := 0;
      cursor := 0;
      yielded := [];
      new;
      OffsetEnds(r.chunks);
    }

    /**
     * `next`: the cluster from the cursor to the next boundary, or None at the
     * end of the text. When it answers None the clusters produced so far are
     * all of the text's clusters.
     */
    method Next() returns (g: Option<seq<char>>)
      requires Valid()
      modifies this
      ensures Valid()
      ensures old(cursor) == |Contents(rope)| ==>
        g == None && cursor == old(cursor) && yielded == old(yielded) && yielded == Graphemes(Contents(rope), 0)
      ensures old(cursor) < |Contents(rope)| ==>
        cursor == NextBoundary(Contents(rope), old(cursor))
        && g == Some(Contents(rope)[old(cursor)..cursor])
        && yielded == old(yielded) + [g.value]
    {
      var text := Contents(rope);
      var a := cursor;
      if a == |text| {
        return None;
      }
      var slice, b, ci, start := ReadCluster(rope.chunks, a, curChunk, curChunkStart);
      g := Some(slice);
      YieldStep(yielded, text, a);
      curChunk, curChunkStart, cursor := ci, start, b;
      yielded := yielded + [slice];
    }
  }

  /** Producing the next cluster moves it from the pending clusters to the produced ones. */
  lemma YieldStep(ys: seq<seq<char>>, text: seq<char>, a: nat)
    requires a < |text|
    ensures ys + Graphemes(text, a)
      == (ys + [text[a..NextBoundary(text, a)]]) + Graphemes(text, NextBoundary(text, a))
  {
  }
}

=== FILE: text.dfy ===
/**
 * Grapheme navigation and display width over a flat text (core/src/text.rs).
 * A text is a sequence of chars; positions are char indices 0..|text|.
 * These functions are the specification that the chunk-walking searches
 * in module Rope are proved against.
 */
module Text {
  import opened Unicode

  // ---------------------------------------------------------------------------
  // Display width (`width`)
  // ---------------------------------------------------------------------------

  /** Display width of a slice: the sum of its characters' widths. */
  function Width(s: seq<char>): (w: nat)
    ensures s == [] ==> w == 0
    ensures w <= 2 * |s|
  {
    if s == [] then 0 else CharWidth(s[0]) + Width(s[1..])
  }

  /** A slice whose characters all take at most one cell (no East Asian wide characters). */
  predicate Narrow(s: seq<char>) {
    forall i :: 0 <= i < |s| ==> CharWidth(s[i]) <= 1
  }

  lemma {:induction false} WidthAppend(a: seq<char>, b: seq<char>)
    ensures Width(a + b) == Width(a) + Width(b)
  {
    if a == [] {
      assert a + b == b;
    } else {
      assert (a + b)[1..] == a[1..] + b;
      WidthAppend(a[1..], b);
    }
  }

  /** On narrow text a width never exceeds the number of characters. */
  lemma {:induction false} NarrowWidth(s: seq<char>)
    requires Narrow(s)
    ensures Width(s) <= |s|
  {
    if s != [] {
      assert Narrow(s[1..]) by {
        forall i | 0 <= i < |s[1..]| ensures CharWidth(s[1..][i]) <= 1 {
          assert s[1..][i] == s[i + 1];
        }
      }
      NarrowWidth(s[1..]);
    }
  }

  // ---------------------------------------------------------------------------
  // Grapheme cluster boundaries
  // ---------------------------------------------------------------------------

  /** Index i is an extended grapheme cluster boundary of text (GB1 and GB2 at the ends). */
  predicate IsBoundary(text: seq<char>, i: int) {
    0 <= i <= |text| && (i == 0 || i == |text| || IsBreak(text[i - 1], text[i]))
  }

  /** The first boundary at or after j. */
  function FirstBoundaryFrom(text: seq<char>, j: nat): (b: nat)
    requires j <= |text|
    ensures j <= b <= |text| && IsBoundary(text, b)
    ensures forall k :: j <= k < b ==> !IsBoundary(text, k)
    decreases |text| - j
  {
    if IsBoundary(text, j) then j else FirstBoundaryFrom(text, j + 1)
  }

  /** The last boundary at or before j. */
  function LastBoundaryUpTo(text: seq<char>, j: nat): (b: nat)
    requires j <= |text|
    ensures b <= j && IsBoundary(text, b)
    ensures forall k :: b < k <= j ==> !IsBoundary(text, k)
  {
    if IsBoundary(text, j) then j else LastBoundaryUpTo(text, j - 1)
  }

  /** `next_grapheme_boundary`: the nearest boundary strictly after i, clamped to |text|. */
  function NextBoundary(text: seq<char>, i: nat): (b: nat)
    requires i <= |text|
    ensures IsBoundary(text, b) && b <= |text|
    ensures i < |text| ==> i < b
    ensures i == |text| ==> b == |text|
    ensures forall k :: i < k < b ==> !IsBoundary(text, k)
  {
    if i == |text| then |text| else FirstBoundaryFrom(text, i + 1)
  }

  /** `prev_grapheme_boundary`: the nearest boundary strictly before i, clamped to 0. */
  function PrevBoundary(text: seq<char>, i: nat): (b: nat)
    requires i <= |text|
    ensures IsBoundary(text, b)
    ensures 0 < i ==> b < i
    ensures i == 0 ==> b == 0
    ensures forall k :: b < k < i ==> !IsBoundary(text, k)
  {
    if i == 0 then 0 else LastBoundaryUpTo(text, i - 1)
  }

  /**
   * `next_grapheme_boundary_nth`: count steps of NextBoundary from i, in the
   * order the source's loop takes them; once the end is reached it stays there.
   */
  function NextBoundaryNth(text: seq<char>, i: nat, count: nat): (r: nat)
    requires i <= |text|
    ensures i <= r <= |text|
    ensures count == 0 ==> r == i
    ensures count > 0 ==> IsBoundary(text, r)
  {
    if count == 0 then i
    else
      var p := NextBoundaryNth(text, i, count - 1);
      if p == |text| then |text| else NextBoundary(text, p)
  }

  /** `prev_grapheme_boundary_nth`: count steps of PrevBoundary from i; once 0 is reached it stays there. */
  function PrevBoundaryNth(text: seq<char>, i: nat, count: nat): (r: nat)
    requires i <= |text|
    ensures r <= i
    ensures count == 0 ==> r == i
    ensures count > 0 ==> IsBoundary(text, r)
  {
    if count == 0 then i
    else
      var p := PrevBoundaryNth(text, i, count - 1);
      if p == 0 then 0 else PrevBoundary(text, p)
  }

  // ---------------------------------------------------------------------------
  // Counting boundaries: an independent characterisation of the nth searches
  // ---------------------------------------------------------------------------

  /** The number of boundaries k with lo <= k < hi. */
  function CountIn(text: seq<char>, lo: nat, hi: nat): nat
    decreases hi
  {
    if hi <= lo then 0 else CountIn(text, lo, hi - 1) + (if IsBoundary(text, hi - 1) then 1 else 0)
  }

  lemma {:induction false} CountSplit(text: seq<char>, lo: nat, mid: nat, hi: nat)
    requires lo <= mid <= hi
    ensures CountIn(text, lo, hi) == CountIn(text, lo, mid) + CountIn(text, mid, hi)
    decreases hi
  {
    if hi > mid {
      CountSplit(text, lo, mid, hi - 1);
    }
  }

  lemma {:induction false} CountNone(text: seq<char>, lo: nat, hi: nat)
    requires forall k :: lo <= k < hi ==> !IsBoundary(text, k)
    ensures CountIn(text, lo, hi) == 0
    decreases hi
  {
    if hi > lo {
      CountNone(text, lo, hi - 1);
    }
  }

  lemma CountOne(text: seq<char>, lo: nat, b: nat)
    requires lo <= b && IsBoundary(text, b)
    requires forall k :: lo <= k < b ==> !IsBoundary(text, k)
    ensures CountIn(text, lo, b + 1) == 1
  {
    CountNone(text, lo, b);
  }

  lemma CountPositive(text: seq<char>, lo: nat, b: nat, hi: nat)
    requires lo <= b < hi && IsBoundary(text, b)
    ensures CountIn(text, lo, hi) >= 1
  {
    CountSplit(text, lo, b, hi);
    CountSplit(text, b, b + 1, hi);
  }

  /** One forward step past p adds exactly one boundary, and there was one left to add. */
  lemma CountStepNext(text: seq<char>, i: nat, p: nat)
    requires i <= p < |text|
    ensures CountIn(text, i + 1, NextBoundary(text, p) + 1) == CountIn(text, i + 1, p + 1) + 1
    ensures CountIn(text, i + 1, p + 1) + 1 <= CountIn(text, i + 1, |text| + 1)
  {
    var r := NextBoundary(text, p);
    CountOne(text, p + 1, r);
    CountSplit(text, i + 1, p + 1, r + 1);
    CountSplit(text, i + 1, r + 1, |text| + 1);
  }

  /** One backward step before p adds exactly one boundary, and there was one left to add. */
  lemma CountStepPrev(text: seq<char>, i: nat, p: nat)
    requires 0 < p <= i <= |text|
    ensures CountIn(text, PrevBoundary(text, p), i) == CountIn(text, p, i) + 1
    ensures CountIn(text, p, i) + 1 <= CountIn(text, 0, i)
  {
    var r := PrevBoundary(text, p);
    CountNone(text, r + 1, p);
    CountSplit(text, r, r + 1, p);
    CountSplit(text, r, p, i);
    CountSplit(text, 0, r, i);
  }

  /** `cmp::min` on indices. */
  function Min(a: nat, b: nat): nat { if a <= b then a else b }

  /**
   * For count >= 1 the forward search lands on the count-th boundary strictly
   * after i, or on |text| when fewer than count boundaries follow i.
   */
  lemma {:induction false} NextNthIsCountthBoundary(text: seq<char>, i: nat, count: nat)
    requires i <= |text| && count >= 1
    ensures IsBoundary(text, NextBoundaryNth(text, i, count))
    ensures CountIn(text, i + 1, NextBoundaryNth(text, i, count) + 1) == Min(count, CountIn(text, i + 1, |text| + 1))
  {
    var p := NextBoundaryNth(text, i, count - 1);
    if count == 1 {
      assert p == i;
    } else {
      NextNthIsCountthBoundary(text, i, count - 1);
    }
    if p < |text| {
      CountStepNext(text, i, p);
    }
  }

  /**
   * For count >= 1 the backward search lands on the count-th boundary strictly
   * before i, or on 0 when fewer than count boundaries precede i.
   */
  lemma {:induction false} PrevNthIsCountthBoundary(text: seq<char>, i: nat, count: nat)
    requires i <= |text| && count >= 1
    ensures IsBoundary(text, PrevBoundaryNth(text, i, count))
    ensures CountIn(text, PrevBoundaryNth(text, i, count), i) == Min(count, CountIn(text, 0, i))
  {
    var p := PrevBoundaryNth(text, i, count - 1);
    if count == 1 {
      assert p == i;
    } else {
      PrevNthIsCountthBoundary(text, i, count - 1);
    }
    if p > 0 {
      CountStepPrev(text, i, p);
    }
  }

  // ---------------------------------------------------------------------------
  // Round trips
  // ---------------------------------------------------------------------------

  /** From a boundary before the end, stepping forward then back returns to it. */
  lemma PrevOfNext(text: seq<char>, i: nat)
    requires IsBoundary(text, i) && i < |text|
    ensures PrevBoundary(text, NextBoundary(text, i)) == i
  {
    var j := NextBoundary(text, i);
    var p := PrevBoundary(text, j);
    assert i <= p;
    assert p <= i;
  }

  /** From a boundary after the start, stepping back then forward returns to it. */
  lemma NextOfPrev(text: seq<char>, i: nat)
    requires IsBoundary(text, i) && 0 < i
    ensures NextBoundary(text, PrevBoundary(text, i)) == i
  {
    var p := PrevBoundary(text, i);
    var n := NextBoundary(text, p);
    assert n <= i;
    assert i <= n;
  }
}

=== FILE: unicode.dfy ===
/**
 * The two Unicode tables the editor consults through foreign crates:
 * the extended grapheme cluster break rules of Unicode Standard Annex #29,
 * section 3.1.1, and the East Asian Width property of Unicode Standard
 * Annex #11. Both are reduced here to small, explicit character classes;
 * everything else in the model depends only on the shape of these
 * definitions (a pairwise break rule and a per-character width), not on
 * the exact tables.
 */
module Unicode {

  /** Control, CR and LF (the classes that rules GB4 and GB5 break around). */
  predicate IsControl(c: char) {
    c < ' ' || c == '\U{7F}'
  }

  /**
   * Extend and ZWJ (rule GB9): the combining diacritical marks, the
   * ideographic tone marks U+302A..U+302D, the kana voicing marks
   * U+3099..U+309A, and U+200D.
   */
  predicate IsExtend(c: char) {
    ('\U{300}' <= c <= '\U{36F}') || c == '\U{200D}'
    || ('\U{302A}' <= c <= '\U{302D}') || ('\U{3099}' <= c <= '\U{309A}')
  }

  /**
   * East Asian Wide and Fullwidth ranges (Hangul Jamo, CJK, Hangul
   * syllables, fullwidth forms), less U+303F IDEOGRAPHIC HALF FILL SPACE,
   * which is narrow.
   */
  predicate IsWide(c: char) {
    ('\U{1100}' <= c <= '\U{115F}')
    || ('\U{2E80}' <= c <= '\U{A4CF}' && c != '\U{303F}')
    || ('\U{AC00}' <= c <= '\U{D7A3}')
    || ('\U{F900}' <= c <= '\U{FAFF}')
    || ('\U{FF00}' <= c <= '\U{FF60}')
    || ('\U{FFE0}' <= c <= '\U{FFE6}')
  }

  /**
   * Whether an extended grapheme cluster boundary lies between two adjacent
   * characters: GB3 (no break inside CR LF), GB4/GB5 (break around controls),
   * GB9 (no break before Extend or ZWJ), GB999 (break everywhere else).
   */
  predicate IsBreak(before: char, after: char) {
    if before == '\r' && after == '\n' then false
    else if IsControl(before) || IsControl(after) then true
    else !IsExtend(after)
  }

  /** Display cells of one character: controls and combining marks take none, wide characters two. */
  function CharWidth(c: char): (w: nat)
    ensures w <= 2
    ensures w == 2 <==> IsWide(c) && !IsControl(c) && !IsExtend(c)
  {
    if IsControl(c) || IsExtend(c) then 0 else if IsWide(c) then 2 else 1
  }
}

=== FILE: window.dfy ===
/**
 * Windows onto buffers and their registry (core/src/window.rs): id
 * allocation, focus tracking and the scroll rule that keeps the cursor in
 * view.
 */
module WindowStore {
  import opened Wrappers
  import opened Layout
  import opened Text
  import opened Lines
  import opened Rope
  import opened Motion
  import opened BufferStore

  /**
   * One axis of `position_cursor_in_view`: first pull the offset back so
   * that pos is at least `scrolloff` past it, then, if pos has reached the
   * last `scrolloff` rows of a view of `size` rows and the content does not
   * end exactly at the bottom of the view, scroll so that pos sits just
   * inside that margin.
   */
  function Scroll(offset: nat, pos: nat, extent: nat, size: nat, scrolloff: nat): nat {
    var clamped := Min(offset, SatSub(pos, scrolloff));
    if pos >= clamped + SatSub(size, scrolloff) && extent != clamped + size then
      SatSub(pos, SatSub(size, scrolloff)) + 1
    else
      clamped
  }

  /**
   * With a margin smaller than the view, the position ends up in view:
   * never above the offset, and within `size` rows of it (strictly within
   * when it is before the end of the content).
   */
  lemma ScrollKeepsInView(offset: nat, pos: nat, extent: nat, size: nat, scrolloff: nat)
    requires scrolloff < size && pos <= extent
    ensures var r := Scroll(offset, pos, extent, size, scrolloff);
      r <= pos && pos <= r + size && (pos < extent ==> pos < r + size)
  {
  }

  /**
   * With a margin at least as large as the view, the rule scrolls past the
   * position (offset pos + 1) unless the content ends exactly at the bottom
   * of the view; the offset is not pinned at 0.
   */
  lemma ScrollPastCaret(offset: nat, pos: nat, extent: nat, size: nat, scrolloff: nat)
    requires size <= scrolloff
    requires extent != Min(offset, SatSub(pos, scrolloff)) + size
    ensures Scroll(offset, pos, extent, size, scrolloff) == pos + 1
  {
  }

  /** When the view is more than twice the margin, running the rule again without moving changes nothing. */
  lemma ScrollIdempotent(offset: nat, pos: nat, extent: nat, size: nat, scrolloff: nat)
    requires 2 * scrolloff < size
    ensures var r := Scroll(offset, pos, extent, size, scrolloff);
      Scroll(r, pos, extent, size, scrolloff) == r
  {
    var clamped := Min(offset, SatSub(pos, scrolloff));
    var r := Scroll(offset, pos, extent, size, scrolloff);
    if pos >= clamped + SatSub(size, scrolloff) && extent != clamped + size {
      assert r == pos - (size - scrolloff) + 1;
      assert r <= SatSub(pos, scrolloff);
    } else {
      assert r == clamped;
    }
  }

  /**
   * The offsets `position_cursor_in_view` leaves for a cursor starting at s:
   * the scroll rule on its line (against the line count and the view height
   * less the status line) and on its column (against the width of its line
   * and the view width less one).
   */
  function ViewOffset(prev: Offset, area: Area, t: seq<char>, s: nat, scrolloff: nat): Offset
    requires s <= |t|
  {
    Offset(
      Scroll(prev.vertical, CharToLine(t, s), LenLines(t), SatSub(area.height, 1), scrolloff),
      Scroll(prev.horizontal, Column(t, s), Width(Line(t, CharToLine(t, s))), SatSub(area.width, 1), scrolloff))
  }

  class Window {
    const id: nat
    const bufferId: nat
    var focused: bool
    var offset: Offset
    const area: Area
    /** A cursor field the window carries but never consults; cursors live in the buffer. */
    const cursor: Cursor

    /** `Window::new`: not focused, offset (0, 0), the given area, the default cursor. */
    constructor(id: nat, bufferId: nat, area: Area, defaultCursor: Cursor)
      ensures this.id == id && this.bufferId == bufferId && this.area == area && cursor == defaultCursor
      ensures !focused && offset == Offset(0, 0)
    {
      this.id := id;
      this.bufferId := bufferId;
      this.area := area;
      this.cursor := defaultCursor;
      focused := false;
      offset := Offset(0, 0);
    }

    /**
     * `position_cursor_in_view`: apply the scroll rule to the line of this
     * window's cursor in `buf` (against the line count and the view height
     * minus the status line) and to its column (against the width of the
     * cursor's line and the view width minus one). Only the offset changes.
     */
    method PositionCursorInView(buf: Buffer, scrolloff: nat)
      requires id in buf.cursors && buf.cursors[id].start <= |Contents(buf.content)|
      modifies this
      ensures offset == ViewOffset(old(offset), area, Contents(buf.content), buf.cursors[id].start, scrolloff)
      ensures focused == old(focused)
    {
      var height := SatSub(area.height, 1);
      var content := Contents(buf.content);
      var cursor := buf.GetCursor(id).start;
      var y := CharToLine(content, cursor);

      offset := offset.(vertical := Min(offset.vertical, SatSub(y, scrolloff)));
      if y >= offset.vertical + SatSub(height, scrolloff) && LenLines(content) != offset.vertical + height {
        offset := offset.(vertical := SatSub(y, SatSub(height, scrolloff)) + 1);
      }

      LineOfIndex(content, cursor);
      var x := Width(content[LineToChar(content, y)..cursor]);
      var width := SatSub(area.width, 1);
      var curLineWidth := Width(Line(content, y));

      offset := offset.(horizontal := Min(offset.horizontal, SatSub(x, scrolloff)));
      if x >= offset.horizontal + SatSub(width, scrolloff) && curLineWidth != offset.horizontal + width {
        offset := offset.(horizontal := SatSub(x, SatSub(width, scrolloff)) + 1);
      }
    }
  }

  /** The registry: windows in creation order, the focused id and the area every window gets. */
  class Windows {
    var nodes: seq<Window>
    var focusedNode: Option<nat>
    const area: Area

    /** Window i has id i and the registry's area; a focused id names an existing window. */
    ghost predicate Valid()
      reads this
    {
      (forall i :: 0 <= i < |nodes| ==> nodes[i].id == i && nodes[i].area == area)
      && (focusedNode.Some? ==> focusedNode.value < |nodes|)
    }

    /** `is_empty`: no window is open; then no window can be the focused one. */
    function IsEmpty(): (e: bool)
      reads this
      ensures e <==> nodes == []
      ensures e ==> GetFocused().None?
    {
      |nodes| == 0
    }

    /** `Windows::new`: no windows, nothing focused, the given total area. */
    constructor(area: Area)
      ensures Valid() && nodes == [] && focusedNode == None && this.area == area
      ensures IsEmpty()
    {
      nodes := [];
      focusedNode := None;
      this.area := area;
    }

    /**
     * `add`: the new id is the number of windows; the window is appended with
     * the registry's whole area, unfocused, offset (0, 0). Existing windows
     * keep their areas (no tiling) and the focus does not move.
     */
    method Add(bufferId: nat, defaultCursor: Cursor) returns (id: nat)
      requires Valid()
      modifies this
      ensures Valid() && !IsEmpty()
      ensures id == |old(nodes)| && |nodes| == id + 1 && nodes[..id] == old(nodes)
      ensures fresh(nodes[id])
      ensures nodes[id].bufferId == bufferId && nodes[id].area == area
      ensures !nodes[id].focused && nodes[id].offset == Offset(0, 0)
      ensures focusedNode == old(focusedNode)
    {
      id := |nodes|;
      var w := new Window(id, bufferId, area, defaultCursor);
      nodes := nodes + [w];
    }

    /**
     * `focus`: for every window with this id, record it as focused and set its
     * flag. Other windows keep their flags (they are not cleared), and an
     * unknown id changes nothing.
     */
    method Focus(id: nat)
      requires Valid()
      modifies this, nodes
      ensures Valid() && nodes == old(nodes)
      ensures id < |nodes| ==> focusedNode == Some(id) && nodes[id].focused
      ensures id >= |nodes| ==> focusedNode == old(focusedNode)
      ensures forall j :: 0 <= j < |nodes| && j != id ==> nodes[j].focused == old(nodes[j].focused)
      ensures forall j :: 0 <= j < |nodes| ==> nodes[j].offset == old(nodes[j].offset)
    {
      for i := 0 to |nodes|
        invariant nodes == old(nodes) && Valid()
        invariant id < i ==> focusedNode == Some(id) && nodes[id].focused
        invariant id >= i ==> focusedNode == old(focusedNode)
        invariant forall j :: 0 <= j < |nodes| && j != id ==> nodes[j].focused == old(nodes[j].focused)
        invariant forall j :: 0 <= j < |nodes| ==> nodes[j].offset == old(nodes[j].offset)
      {
        var node := nodes[i];
        if node.id == id {
          focusedNode := Some(id);
          node.focused := true;
        }
      }
    }

    /** `get_by_buffer_id`: the first window showing that buffer, or None. */
    method GetByBufferId(bufferId: nat) returns (r: Option<Window>)
      ensures r.Some? ==> r.value.bufferId == bufferId
      ensures r.Some? ==> exists i :: 0 <= i < |nodes| && nodes[i] == r.value
                                   && (forall j :: 0 <= j < i ==> nodes[j].bufferId != bufferId)
      ensures r.None? <==> forall j :: 0 <= j < |nodes| ==> nodes[j].bufferId != bufferId
    {
      var i := 0;
      while i < |nodes|
        invariant 0 <= i <= |nodes|
        invariant forall j :: 0 <= j < i ==> nodes[j].bufferId != bufferId
      {
        if nodes[i].bufferId == bufferId {
          return Some(nodes[i]);
        }
        i := i + 1;
      }
      return None;
    }

    /**
     * `get_focused` / `get_focused_mut`: the window at the index the focused
     * id names, or None when nothing is focused. Because window i has id i,
     * it is the window with the focused id.
     */
    function GetFocused(): (r: Option<Window>)
      reads this
      ensures r.Some? <==> focusedNode.Some? && focusedNode.value < |nodes|
      ensures Valid() && r.Some? ==> r.value.id == focusedNode.value && r.value in nodes
    {
      if focusedNode.Some? && focusedNode.value < |nodes| then Some(nodes[focusedNode.value]) else None
    }
  }
}

=== FILE: wrappers.dfy ===
/** Shared result shapes. */
module Wrappers {
  datatype Option<T> = None | Some(value: T)

  /** A fallible result carrying an error value (eyre's `Result`). */
  datatype Result<T, E> = Ok(value: T) | Err(error: E)

  /** Why a call aborts the program instead of returning. */
  datatype Abort =
    | RopeIndexOutOfRange   // a rope method given an index past the end of the text
    | Underflow             // an unsigned subtraction below zero
    | NotImplemented        // a `todo!()` reached

  /** A call that either returns a value or aborts. */
  datatype Outcome<T> = Done(value: T) | Aborted(reason: Abort)
}
